=== FILE: README.md ===
# GardenTelemetry core in Dafny

GardenTelemetry is firmware for a TM4C123 garden node. Its LCD shows a clock, an alarm editor and a sensor graph. A Wi-Fi modem links it to the Blynk app using virtual-pin CSV lines. This project models three parts of it as pure Dafny functions and methods over immutable state, and proves properties of them:

- **The clock and its mode machine** (`clock.c`). It covers the 1 Hz `updateTime` step, the setters, `setMode`, and the swap of the clock and alarm values when Clock and Setting Alarm modes are entered. It also covers the alarm comparison and the digital time text. Each critical section is one atomic step. Drawing comes back as a list of `Output` values (title, timer start, hands, time text, alarm tone).
- **The virtual-pin bridge** (`Blynk.c`). `TM4C_to_Blynk` produces the outbound line. `Blynk_to_TM4C` splits the inbound line with `strtok`, reads two numbers with `atoi`, and dispatches on the pin number. Calls into drivers come back as `Action` values.
- **The fixed-point and plot helpers** (`fixed.c`). These are the two six-character formatters, the `resize` range remap, the window filter of `ST7735_XYplot`, and the pixel sequence of `ST7735_Line`.

Modules:

| file | module | contents |
|---|---|---|
| carith.dfy | `CArith` | C's truncating `/`, `uint32_t` conversion, `Option` |
| ctext.dfy | `CText` | `%d` rendering, `atoi`, `strtok` on one delimiter, NUL-terminated buffer fit |
| clock.dfy | `Clock` | clock state, `updateTime`, setters, mode machine, time text |
| clock_cycle.dfy | `ClockCycle` | the 12-hour clock read as a second of the day; hour, half-day and day cycles |
| blynk.dfy | `Blynk` | outbound encoder, inbound parser, pin dispatch |
| fixed.dfy | `FixedPoint` | `ST7735_sDecOut2`, `ST7735_uBinOut6` |
| plot.dfy | `Plot` | `resize`, `ST7735_XYplot` |
| line.dfy | `Line` | `ST7735_Line` |

Integers are unbounded. Where the C code converts, that is written out: `atoi` results are stored in `uint32_t` (`ToU32`), and values are read back as `int` (`ToI32`). C's `/` is `CDiv`, which truncates toward zero.

### Behaviour of the code worth knowing

The model follows the code in each of these places:

- `setMode` keeps no "previous" mode. It sets `initMode` only when the requested mode differs from the current one (clock.c:67-71).
- The Setting Alarm entry block does not stop Timer0, so `updateTime` keeps advancing the alarm value being edited. That mode also never consumes `minuteChanged` (clock.c:132-168). The clock saved in `prev` stands still meanwhile, because `updateTime` changes only the live fields and the two flags (clock.c:256-265). The clock that the Clock entry restores has therefore lost the time spent editing.
- `clockMode` sounds the alarm whenever hours, minutes and seconds equal the alarm's. It checks neither the armed flag nor the meridiem (clock.c:113-116). The armed flag is a separate copy in Blynk.c, because clock.h declares `alarmIsArmed` `static`.
- 12:59:59 PM is followed by 1:00:00 PM: the meridiem flips only when the hour becomes 12 (clock.c:261-262). This is the usual 12-hour clock.
- `clockMode`'s entry block swaps the live fields with `prev` and the alarm on every entry into Clock mode, not only after Setting Alarm's entry has saved the clock (clock.c:81-100). The first poll after start-up therefore starts the clock at 11:59:50 with the alarm at 11:59:40 (clock.c:27-45). A request for Setting Alarm followed by a request for Clock before `setAlarmMode` runs loads the stale `prev` as the clock and makes the running time the alarm.
- Blynk.c tests pin 0x0C before pin 8. Its second `pin_num == 0x0C` branch, which calls `setSensor`, therefore never runs (Blynk.c:164-198).

## Model

| member | source | states |
|---|---|---|
| Clock.Tick | GardenTelemetry/clock.c:259-262 | From a valid face time the result is valid. Seconds become 0 exactly from 59. The meridiem flips exactly at 11:59:59. 12:59:59 goes to 1:00:00 with the same meridiem. |
| Clock.UpdateTime | GardenTelemetry/clock.c:256-265 | The live time becomes its `Tick` successor, so the ClockCycle lemmas apply to it. Sets `timeChanged`. Sets `minuteChanged` when the seconds were 59, and otherwise leaves it as it was. Changes nothing but the live time and the two flags. |
| ClockCycle.TickIndex | GardenTelemetry/clock.c:256-265 | One `updateTime` moves the second-of-day index of the 12-hour clock on by exactly one, modulo 86400. |
| ClockCycle.AdvanceIndex | GardenTelemetry/clock.c:256-265 | k calls move the index on by k modulo 86400, and the time stays valid. |
| ClockCycle.HourLater | GardenTelemetry/clock.c:259-262 | 3600 calls keep minutes and seconds and move the hour on by one (12 to 1). The meridiem flips exactly when the hour was 11. |
| ClockCycle.DayCycle | GardenTelemetry/clock.c:256-265 | 86400 calls bring every valid time back to itself. |
| ClockCycle.HalfDayCycle | GardenTelemetry/clock.c:256-265 | 43200 calls restore hours, minutes and seconds and flip the meridiem. |
| ClockCycle.FromIndexOfIndex | GardenTelemetry/clock.c:256-262 | Decoding the second-of-day index of a valid time gives the time back, so the index is injective. |
| ClockCycle.IndexOfFromIndex | GardenTelemetry/clock.c:256-262 | Encoding the decoded time of any second of the day gives that second back. With the row above, the index is a bijection between valid times and 0..86399. |
| Clock.SetHour | GardenTelemetry/clock.c:186-192 | The hour becomes the argument, unvalidated. `timeChanged` is set, and nothing else changes. |
| Clock.SetMinute | GardenTelemetry/clock.c:178-184 | The minute becomes the argument, unvalidated. `timeChanged` is set, and nothing else changes. |
| Clock.ToggleMeridiem | GardenTelemetry/clock.c:194-201 | The meridiem changes and `timeChanged` is set; nothing else changes. |
| Clock.ToggleMeridiemInvolution | GardenTelemetry/clock.c:194-201 | Toggling twice gives back the original time. |
| Clock.Flip | GardenTelemetry/clock.c:250-254 | `swapMerridian` always changes the meridiem. |
| Clock.SetMode | GardenTelemetry/clock.c:67-71 | The mode becomes the request. `initMode` is raised exactly when the request differs from the current mode, and an already active mode leaves the state unchanged. |
| Clock.SetModeIdempotent | GardenTelemetry/clock.c:67-71 | Requesting the same mode a second time changes nothing more. |
| Clock.EnterSetAlarm | GardenTelemetry/clock.c:136-151 | The clock is saved in `prev` and the alarm is loaded into the live fields. `initMode` is cleared and `timeChanged` is set. |
| Clock.EnterClock | GardenTelemetry/clock.c:83-100 | The edited live fields become the alarm and the clock is restored from `prev`. `initMode` is cleared and `timeChanged` is set. |
| Clock.AliasSwapRoundTrip | GardenTelemetry/clock.c:89-148 | Whatever the live fields hold after the Setting Alarm entry, the Clock entry stores it as the alarm and restores the clock exactly. |
| Clock.ClockEntry | GardenTelemetry/clock.c:81-102 | With `initMode` raised it is the Clock entry swap (`EnterClock`), otherwise it changes nothing and draws nothing. It never shows the time text and never sounds the alarm. |
| Clock.ClockTimeStep | GardenTelemetry/clock.c:104-117 | Consumes `timeChanged` and shows the time exactly when it was set. Sounds the alarm exactly when it was set and h/m/s equal the alarm's. |
| Clock.ClockMinuteStep | GardenTelemetry/clock.c:119-128 | Consumes `minuteChanged` and changes nothing else. It never shows the time text and never sounds the alarm. |
| Clock.ClockModePoll | GardenTelemetry/clock.c:79-130 | All three flags end up clear. On every entry the live fields become the alarm and the clock comes back from `prev` (after Setting Alarm: the edited value becomes the alarm). The time is shown once exactly when entering or changed. The tone is emitted exactly then, if h/m/s match. |
| Clock.SetAlarmModePoll | GardenTelemetry/clock.c:132-168 | On entry the clock is saved and the alarm is loaded for editing. The time is shown once exactly when entering or changed. It never sounds the alarm and leaves `minuteChanged` alone. |
| Clock.QuickReturnSwaps | GardenTelemetry/clock.c:67-100 | From Clock mode, requesting Setting Alarm and then Clock before any poll, one `clockMode` call makes the stale `prev` the clock and the running time the alarm. |
| Clock.FirstPollSwaps | GardenTelemetry/clock.c:27-100 | The first `clockMode` call on the initial values starts the clock at 11:59:50 and sets the alarm to 11:59:40. |
| Clock.EditAlarmRoundTrip | GardenTelemetry/clock.c:67-168 | From Clock mode: request Setting Alarm, poll once, edit the live fields to any value, request Clock, poll once. The clock comes back unchanged and the edit is the alarm. |
| Clock.DisplayCurrentTime | GardenTelemetry/clock.c:267-298 | For fields 0..99 the text is 10 characters: two digits each spelling hours, minutes and seconds, ':' at 2 and 5, and "am"/"pm" at the end. |
| Clock.TimeTextOverflowsBuffer | GardenTelemetry/clock.c:270-297 | For every valid time, the text plus its NUL does not fit `timeBuffer[10]`. |
| Clock.TimeTextFitsCorrectedBuffer | GardenTelemetry/clock.c:270 | With 11 bytes, the text plus NUL fits for all two-digit fields. |
| CText.Tokens | GardenTelemetry/Blynk.c:105-107 | `strtok` tokens are non-empty and free of the delimiter, and together they are the line with every delimiter removed. |
| CText.TokensSplit | GardenTelemetry/Blynk.c:105-107 | A delimiter separates tokens: the tokens of a, sep, b are those of a followed by those of b. With `TokensSingle`, a delimiter-free non-empty text being one token, this fixes every line's tokens as its maximal delimiter-free runs, and so their number. |
| CText.Atoi | GardenTelemetry/Blynk.c:108-109 | After white space, text that starts with neither a digit nor a sign reads as 0. `AtoiDec` gives the read-back of every `%d` rendering. |
| CText.AtoiDec | GardenTelemetry/Blynk.c:108-109 | `atoi` reads back any `%d` rendering followed by a non-digit or by nothing. |
| Blynk.TM4CToBlynk | GardenTelemetry/Blynk.c:73-83 | The output is empty exactly for pins outside 70..99. Otherwise it starts with the pin's digits and a comma, and ends with ",0.0" and a newline. Between them are only digits, which spell the value without a leading zero. |
| Blynk.TelemetryExample | GardenTelemetry/Blynk.c:73-83 | Pin 74 with value 512 gives "74,512,0.0\n". Pins 60 and 100 give nothing. |
| Blynk.ParseLine | GardenTelemetry/Blynk.c:105-109 | With the field buffers taken large enough (see Left out): undefined (None) exactly when the line has fewer than three tokens. Otherwise pin and value are `atoi` of the first two tokens, taken modulo 2^32. |
| Blynk.EncodedLineParses | GardenTelemetry/Blynk.c:105-109 | A line of the shape pin,value,0.0 parses to exactly that pin and value. |
| Blynk.TelemetryRoundTrip | GardenTelemetry/Blynk.c:73-109 | With a 3-byte pin buffer, what `TM4C_to_Blynk` sends, `Blynk_to_TM4C`'s parser reads back to the same pin and value. |
| Blynk.Dispatch | GardenTelemetry/Blynk.c:112-198 | Each pin's effect. Mode pins act only on value 1, and edit pins only in edit mode. Pin 8 sets edit mode iff the value is 1. Pin 9 arms iff the value is non-zero; its actions are exactly the "ALARM ON " status, or for 0 the "ALARM OFF" status and the tone teardown. Pin 10 silences only in Clock mode. Only pins 2..7 touch the clock, and pins above 12 change nothing. |
| Blynk.DispatchTwice | GardenTelemetry/Blynk.c:112-198 | Delivering the same pin and value twice leaves the state as delivering it once, for every pin but 5. Pin 5 toggles the meridiem back. |
| Blynk.BlynkToTM4C | GardenTelemetry/Blynk.c:89-200 | No message changes nothing. A line of fewer than three non-empty fields (`strtok` tokens; "9,,1" has two) is undefined. Otherwise the result is the dispatch of the parsed pin and value. |
| Blynk.ClockPinExample | GardenTelemetry/Blynk.c:122-128 | Pin 2 with value 1 switches Setting Alarm to Clock and raises the entry flag. In Clock mode it changes nothing. |
| Blynk.ArmExample | GardenTelemetry/Blynk.c:176-178 | The line "9,1,0.0\n" arms the alarm and shows "ALARM ON ". |
| Blynk.DisarmExample | GardenTelemetry/Blynk.c:176-179 | The line "9,0,0.0\n" disarms, shows "ALARM OFF" and disables the alarm tone. |
| Blynk.PinNumberOverflow | GardenTelemetry/Blynk.c:60 | Every two-digit pin plus its NUL overruns `Pin_Number[2]`. |
| Blynk.PinNumberFitsCorrected | GardenTelemetry/Blynk.c:105 | Every pin 0..99 fits a 3-byte buffer. |
| FixedPoint.FillIsHundredths | GardenTelemetry/fixed.c:39-54 | The right-to-left fill loop produces the optional sign, the whole part without leading zeros, '.', and two digits, right-aligned in six characters. |
| FixedPoint.SDecOut2 | GardenTelemetry/fixed.c:28-58 | Always six characters: " **.**" from 10000 up, "-**.**" from -10000 down, and otherwise the signed hundredths rendering right-aligned. |
| FixedPoint.SDecOut2Shape | GardenTelemetry/fixed.c:36-54 | In range: '.' at index 3. The digits before it spell abs(n)/100 without a leading zero, and the two after spell abs(n)%100. Spaces are on the left, with a '-' just before the digits exactly for negative n. |
| FixedPoint.SDecOut2TooLarge | GardenTelemetry/fixed.c:21 | 12345 shows " **.**". |
| FixedPoint.SDecOut2TooSmall | GardenTelemetry/fixed.c:26 | -12345 shows "-**.**". |
| FixedPoint.SDecOut2Positive | GardenTelemetry/fixed.c:22 | 2345 shows " 23.45". |
| FixedPoint.SDecOut2Negative | GardenTelemetry/fixed.c:23 | -8100 shows "-81.00". |
| FixedPoint.SDecOut2NegativeSmall | GardenTelemetry/fixed.c:24 | -102 shows " -1.02". |
| FixedPoint.SDecOut2Fraction | GardenTelemetry/fixed.c:25 | 31 shows "  0.31". |
| FixedPoint.UBinOut6 | GardenTelemetry/fixed.c:82-106 | Always six characters: "***.**" from 64000 up, and otherwise the unsigned rendering of `n*100/64` hundredths, right-aligned. |
| FixedPoint.UBinOut6Shape | GardenTelemetry/fixed.c:86-103 | The digits shown, read as hundredths h, satisfy 64h <= 100n < 64(h+1): truncation, never more than the value. There is no sign, and there are spaces on the left. |
| FixedPoint.UBinOut6Zero | GardenTelemetry/fixed.c:71 | 0 shows "  0.00". |
| FixedPoint.UBinOut6Hundredth | GardenTelemetry/fixed.c:72 | 1 shows "  0.01". |
| FixedPoint.UBinOut6ThirtyNine | GardenTelemetry/fixed.c:74 | 25 shows "  0.39". |
| FixedPoint.UBinOut6Quarter | GardenTelemetry/fixed.c:73 | 16 shows "  0.25". |
| FixedPoint.UBinOut6Two | GardenTelemetry/fixed.c:76 | 128 shows "  2.00". |
| FixedPoint.UBinOut6Small | GardenTelemetry/fixed.c:75 | 125 shows "  1.95". |
| FixedPoint.UBinOut6Medium | GardenTelemetry/fixed.c:77 | 1250 shows " 19.53". |
| FixedPoint.UBinOut6Truncates | GardenTelemetry/fixed.c:78 | 7500 shows "117.18", one hundredth below the comment's "117.19". |
| FixedPoint.UBinOut6Largest | GardenTelemetry/fixed.c:79 | 63999 shows "999.98", one hundredth below the comment's "999.99". |
| FixedPoint.UBinOut6TooLarge | GardenTelemetry/fixed.c:80 | 64000 shows "***.**". |
| FixedPoint.FixedTextUnterminated | GardenTelemetry/fixed.c:36-55 | For every in-range input, the six characters plus a NUL do not fit `fixedNum[6]`. |
| FixedPoint.FixedTextFitsCorrected | GardenTelemetry/fixed.c:87 | Seven bytes hold the text and its NUL for every input. |
| Plot.ResizeAsWritten | GardenTelemetry/fixed.c:145-147 | The old minimum maps to 0. When the new minimum is 0 the result equals the intended remap. |
| Plot.ResizeMissesTop | GardenTelemetry/fixed.c:145-147 | Remapping [0,100] onto the plot's y range [32,160] sends 100 to 96, where the intended remap gives 160. |
| Plot.Resize | GardenTelemetry/fixed.c:136-143 | The intended remap sends the old minimum to the new minimum and the old maximum to the new maximum. |
| Plot.ResizeInRange | GardenTelemetry/fixed.c:136-143 | A point of the old range lands in the new range. |
| Plot.ResizeMonotone | GardenTelemetry/fixed.c:136-143 | The intended remap keeps the order of points. |
| Plot.Visible | GardenTelemetry/fixed.c:162-167 | The filtered list is no longer than the input, and every point in it lies in the window. |
| Plot.VisibleMembers | GardenTelemetry/fixed.c:162-167 | A point is plotted iff it lies in the inclusive window and some index of the two arrays holds it. |
| Plot.XYplot | GardenTelemetry/fixed.c:158-169 | The loop over the first `num` entries plots exactly the in-window points, in order. |
| Line.DrawLine | GardenTelemetry/fixed.c:177-206 | Undefined (None) exactly for a zero-length line. Otherwise it draws max(abs(dx), abs(dy)) pixels, pixel k being the closed form. The first pixel is (x1,y1), and (x2,y2) is never drawn. |
| Line.AlongX | GardenTelemetry/fixed.c:186-195 | In the x-major loop, x steps by the sign of dx and y is recomputed with truncating division. It runs abs(dx) times. |
| Line.AlongY | GardenTelemetry/fixed.c:196-205 | The y-major loop, symmetric to the x-major one, runs abs(dy) times. |
| Line.MinorStep | GardenTelemetry/fixed.c:193 | The code's truncating expression for the minor coordinate equals a floor division with a non-negative numerator. |
| Line.TracedStart | GardenTelemetry/fixed.c:181-182 | Pixel 0 is the first endpoint. |
| Line.TracedEnd | GardenTelemetry/fixed.c:189-193 | One step past the last pixel drawn, the formula lands on the second endpoint. |
| Line.TracedSkipsEnd | GardenTelemetry/fixed.c:189 | No pixel drawn is the second endpoint. |
| Line.TracedInBox | GardenTelemetry/fixed.c:186-205 | Every pixel lies in the box spanned by the endpoints. |
| Line.TracedConnected | GardenTelemetry/fixed.c:186-205 | Successive pixels touch: one step on the major axis and at most one on the other. |

## Left out

- Timer.c and Timer.h: register set-up, NVIC priorities and ISR trampolines. `Timer0_Init` appears only as the `StartSecondTimer(80000000)` output.
- Interrupt masking and preemption: each `DisableInterrupts`/`EnableInterrupts` block is one atomic step.
- Clock hands (`displayClockHands` and the hand-geometry helpers) use floating-point trigonometry. Only a `DrawHands(h, m)` output is kept.
- Drivers (`ST7735_*` drawing, `PWM0A_Init`, `PWM0B_Duty`, `PortF_Output`, the ESP8266 link): they appear as `Output`/`Action` values or as the text sent.
- `getMode` is the `mode` field of the clock state.
- `setSecond`, `setSensor` and `alarmVolume` are defined outside the modelled files. `setSecond` is kept as a `SetSecond` action, `alarmVolume` as a bridge field, and `setSensor` is unreachable.
- The main loop, `SendInformation`, the sensor sample ring and the histogram of graph mode are outside this model.
- `ST7735_XYplotInit` is reduced to the `Window` it stores.
- `ST7735_XYplot`'s pixel placement is not modelled. The result is the list of data points that pass the filter, not screen positions.
- The `#ifdef DEBUG1` echo in `Blynk_to_TM4C` is not modelled.
- `Pin_Integer[8]`, `Pin_Float[8]` and `serial_buf[64]` capacities are not modelled. Longer fields would overrun them like `Pin_Number`.
- Blynk.ParseLine: the parse ignores the two bytes of `Pin_Number`. The `strcpy` of any pin field of two or more digits overruns it, which is undefined behaviour in C (see Findings). This covers every telemetry pin 70..99 and the inbound pins 10, 11 and 12. The model reads such pins as if the buffer were large enough.
- CText.Atoi: `atoi` overflow beyond `int` is undefined behaviour in C; the model reads any number of digits.
- Clock.Tick: the clock fields are unbounded integers. A C `int` that wraps after about 2^31 increments of an out-of-range field is not modelled.
- Blynk.Dispatch: `4000 * growLightDuty` is an unbounded product. The 32-bit wrap of the C multiplication and the width of `PWM0B_Duty`'s argument are not modelled.
- Plot.ResizeAsWritten: the `int32_t` product `(point-oldMin)*(newMax-newMin)` may overflow in C. The model's product is unbounded.
- Line.DrawLine: `y1 * Xdiff` and `signOfStep * Ydiff * stepNumber` are `int` products. They overflow only for coordinates far beyond the 128x160 panel, and that is not modelled.

## Findings

| source | as written | input that shows it | evidently intended | confidence | as-written member | corrected member |
|---|---|---|---|---|---|---|
| GardenTelemetry/fixed.c:146 | divides by `(oldMax - oldMin) + newMin` | point 100 from [0,100] onto [32,160] gives 96 | `newMin + (point - oldMin) * (newMax - newMin) / (oldMax - oldMin)`, giving 160 | high; not executed | Plot.ResizeAsWritten (exhibited by Plot.ResizeMissesTop) | Plot.Resize (Plot.ResizeInRange, Plot.ResizeMonotone) |
| GardenTelemetry/clock.c:270 | `char timeBuffer[10]` receives a 10-character `sprintf` result and its NUL | any valid time, e.g. 11:59:40 am gives "11:59:40am" | an 11-byte buffer | high; not executed | Clock.TimeTextOverflowsBuffer | Clock.TimeTextFitsCorrectedBuffer |
| GardenTelemetry/fixed.c:36 | `char fixedNum[6]` gets six characters and no NUL, then goes to `ST7735_OutString` | any in-range value, e.g. 2345 | a 7-byte buffer with a terminating NUL (same at line 87) | high; not executed | FixedPoint.FixedTextUnterminated | FixedPoint.FixedTextFitsCorrected |
| GardenTelemetry/Blynk.c:60 | `char Pin_Number[2]` is the `strcpy` target of the pin field | the line "12,1,0.0\n" writes "12" and its NUL into two bytes | a 3-byte buffer for pins 0..99 | high; not executed | Blynk.PinNumberOverflow | Blynk.PinNumberFitsCorrected |

=== FILE: blynk.dfy ===
/** The virtual-pin bridge of GardenTelemetry/Blynk.c: the outbound CSV
    encoder `TM4C_to_Blynk` and the inbound `Blynk_to_TM4C`, which splits a
    line with `strtok`, reads two numbers with `atoi` and dispatches on the
    pin number into the clock's mode and edit state, the alarm flags and
    the actuators. Driver calls come back as `Action` values. */
module Blynk {
  import opened CArith
  import opened CText
  import opened Clock

  /** Calls the bridge makes into drivers and into routines whose bodies
      are not part of this model. */
  datatype Action =
    | PwmDuty(duty: int)          // PWM0B_Duty(4000 * growLightDuty)
    | PortFOutput(bits: int)      // PortF_Output(LED << 2)
    | AlarmStatus(text: string)   // printAlarmStatus
    | DisableAlarm                // disableAlarm
    | SetSecond(value: int)       // setSecond, declared elsewhere

  /** The globals Blynk.c writes, plus the clock state it drives through
      clock.c. `armed` is Blynk.c's own copy of the `static alarmIsArmed`
      that clock.h gives every file including it: clock.c never sees it. */
  datatype Bridge = Bridge(
    clock: ClockState,
    editTime: bool,
    armed: bool,
    growLightDuty: int,
    led: u32,
    alarmVolume: int)

  /** PWM counts per unit of `growLightDuty`. */
  const GrowLightScale: int := 4000

  const AlarmOnText: string := "ALARM ON "
  const AlarmOffText: string := "ALARM OFF"

  /** The mode pins 2, 3 and 4 request. */
  function RequestedMode(pin: int): Mode
    requires 2 <= pin <= 4
  {
    if pin == 2 then ClockMode else if pin == 3 then SetAlarmMode else GraphSensorsMode
  }

  /** The `if`/`else if` chain of `Blynk_to_TM4C` on `pin_num`, with the
      value `pin_int`; both are `uint32_t`. */
  function Dispatch(b: Bridge, pin: u32, value: u32): (r: (Bridge, seq<Action>))
    // mode requests take effect only for value 1
    ensures 2 <= pin <= 4 ==> r.1 == []
    ensures 2 <= pin <= 4 && value == 1 ==> r.0 == b.(clock := SetMode(b.clock, RequestedMode(pin)))
    ensures 2 <= pin <= 4 && value != 1 ==> r.0 == b
    // editing pins do nothing outside edit mode
    ensures pin in {5, 6, 7, 12} && !b.editTime ==> r.0 == b && r.1 == []
    ensures pin == 5 && b.editTime ==> r.0 == b.(clock := ToggleMeridiem(b.clock)) && r.1 == []
    ensures pin == 6 && b.editTime ==> r.0 == b.(clock := SetHour(b.clock, ToI32(value))) && r.1 == []
    ensures pin == 7 && b.editTime ==> r.0 == b.(clock := SetMinute(b.clock, ToI32(value))) && r.1 == []
    ensures pin == 12 && b.editTime ==> r.0 == b && r.1 == [SetSecond(ToI32(value))]
    // edit mode, arming, silencing
    ensures pin == 8 ==> r.0 == b.(editTime := value == 1) && r.1 == []
    ensures pin == 9 ==> r.0 == b.(armed := value != 0)
    ensures pin == 9 ==>
      r.1 == (if value != 0 then [AlarmStatus(AlarmOnText)] else [AlarmStatus(AlarmOffText), DisableAlarm])
    ensures pin == 10 ==> r.0 == b
    ensures pin == 10 ==> (r.1 == [DisableAlarm] <==> value == 1 && b.clock.mode == ClockMode)
    ensures pin == 10 && !(value == 1 && b.clock.mode == ClockMode) ==> r.1 == []
    // actuators and stored settings
    ensures pin == 0 ==> r.0 == b.(growLightDuty := ToI32(value))
    ensures pin == 0 ==> r.1 == [PwmDuty(GrowLightScale * ToI32(value))]
    ensures pin == 1 ==> r.0 == b.(led := value) && r.1 == [PortFOutput(ToU32(value * 4))]
    ensures pin == 11 ==> r.0 == b.(alarmVolume := value) && r.1 == []
    // everything else is ignored, and only pins 2..7 touch the clock
    ensures pin > 12 ==> r.0 == b && r.1 == []
    ensures !(2 <= pin <= 7) ==> r.0.clock == b.clock
  {
    if pin == 0x00 then
      var duty := ToI32(value);
      (b.(growLightDuty := duty), [PwmDuty(GrowLightScale * duty)])
    else if pin == 0x01 then
      (b.(led := value), [PortFOutput(ToU32(value * 4))])
    else if pin == 0x02 then
      if b.clock.mode != ClockMode && value == 1 then (b.(clock := SetMode(b.clock, ClockMode)), []) else (b, [])
    else if pin == 0x03 then
      if b.clock.mode != SetAlarmMode && value == 1 then (b.(clock := SetMode(b.clock, SetAlarmMode)), []) else (b, [])
    else if pin == 0x04 then
      if b.clock.mode != GraphSensorsMode && value == 1 then (b.(clock := SetMode(b.clock, GraphSensorsMode)), []) else (b, [])
    else if pin == 0x05 then
      if b.editTime then (b.(clock := ToggleMeridiem(b.clock)), []) else (b, [])
    else if pin == 0x06 then
      if b.editTime then (b.(clock := SetHour(b.clock, ToI32(value))), []) else (b, [])
    else if pin == 0x07 then
      if b.editTime then (b.(clock := SetMinute(b.clock, ToI32(value))), []) else (b, [])
    else if pin == 0x0C then
      // the later `else if(pin_num == 0x0C)` calling setSensor is unreachable
      if b.editTime then (b, [SetSecond(ToI32(value))]) else (b, [])
    else if pin == 0x08 then
      (b.(editTime := value == 1), [])
    else if pin == 0x09 then
      if value != 0 then (b.(armed := true), [AlarmStatus(AlarmOnText)])
      else (b.(armed := false), [AlarmStatus(AlarmOffText), DisableAlarm])
    else if pin == 0x0A then
      if value == 1 && b.clock.mode == ClockMode then (b, [DisableAlarm]) else (b, [])
    else if pin == 0x0B then
      (b.(alarmVolume := value), [])
    else (b, [])
  }

  /** A parsed inbound message: `pin_num` and `pin_int`. The third field
      is copied into `Pin_Float` and never used. */
  datatype Message = Message(pin: u32, value: u32)

  /** The field split and number conversion of `Blynk_to_TM4C`. `strtok`
      skips empty fields; with fewer than three tokens one of the `strcpy`
      calls is handed NULL, which is undefined behaviour: `None`. */
  function ParseLine(line: string): (r: Option<Message>)
    ensures r.None? <==> |Tokens(line, ',')| < 3
    ensures r.Some? ==>
      var fields := Tokens(line, ',');
      && Atoi(fields[0]) % TwoTo32 == r.value.pin
      && Atoi(fields[1]) % TwoTo32 == r.value.value
  {
    var fields := Tokens(line, ',');
    if |fields| < 3 then None
    else Some(Message(ToU32(Atoi(fields[0])), ToU32(Atoi(fields[1]))))
  }

  /** One run of `Blynk_to_TM4C`. `message` is what `ESP8266_GetMessage`
      delivered, `None` when nothing arrived. The result is `None` when the
      C code has undefined behaviour (a line of fewer than three non-empty
      fields, that is `strtok` tokens). */
  function BlynkToTM4C(b: Bridge, message: Option<string>): (r: Option<(Bridge, seq<Action>)>)
    ensures message.None? ==> r == Some((b, []))
    ensures message.Some? ==> (r.None? <==> ParseLine(message.value).None?)
    ensures message.Some? && r.Some? ==>
      r.value == Dispatch(b, ParseLine(message.value).value.pin, ParseLine(message.value).value.value)
  {
    match message
    case None => Some((b, []))
    case Some(line) =>
      match ParseLine(line)
      case None => None
      case Some(m) => Some(Dispatch(b, m.pin, m.value))
  }

  /** The constant end of every outbound line: an unused float field. */
  const TelemetryTail: string := ",0.0\n"

  /** `TM4C_to_Blynk`: what is written to the Wi-Fi link. Pins outside
      70..99 are dropped; the others go out as `pin,value,0.0` and a newline. */
  function TM4CToBlynk(pin: u32, value: u32): (r: string)
    ensures r == [] <==> pin < 70 || pin > 99
    ensures r != [] ==> |r| >= 8 && r[..2] == NatStr(pin) && r[2] == ','
    ensures r != [] ==> r[|r| - 5..] == TelemetryTail
    // the middle field is the value in decimal, without a leading zero
    ensures r != [] ==>
      && AllDigits(r[3..|r| - 5]) && DigitsValue(r[3..|r| - 5]) == value
      && (r[3] == '0' ==> |r| == 9)
  {
    if pin < 70 || pin > 99 then []
    else
      var v := NatStr(value);
      var r := NatStr(pin) + "," + v + TelemetryTail;
      assert r[3..|r| - 5] == v;
      r
  }

  /** The three fields of an encoded line, as `strtok` returns them. */
  lemma {:induction false} EncodedTokens(p: string, v: string)
    requires p != [] && v != [] && ',' !in p && ',' !in v
    ensures Tokens(p + "," + v + TelemetryTail, ',') == [p, v, "0.0\n"]
  {
    var rest := v + [','] + "0.0\n";
    EncodedSplit(p, v);
    TokensCons(p, rest, ',');
    RestTokens(v);
  }

  lemma EncodedSplit(p: string, v: string)
    ensures p + "," + v + TelemetryTail == p + [','] + (v + [','] + "0.0\n")
  {
    assert TelemetryTail == [','] + "0.0\n";
  }

  lemma {:induction false} RestTokens(v: string)
    requires v != [] && ',' !in v
    ensures Tokens(v + [','] + "0.0\n", ',') == [v, "0.0\n"]
  {
    TokensCons(v, "0.0\n", ',');
    TokensSingle("0.0\n", ',');
  }

  /** A line of the outbound shape parses to the two numbers it carries,
      whatever the pin. */
  lemma {:induction false} EncodedLineParses(pin: u32, value: u32)
    ensures ParseLine(NatStr(pin) + "," + NatStr(value) + TelemetryTail) == Some(Message(pin, value))
  {
    var p := NatStr(pin);
    var v := NatStr(value);
    EncodedTokens(p, v);
    var fields := Tokens(p + "," + v + TelemetryTail, ',');
    assert fields[0] == p && fields[1] == v;
    assert Atoi(p) == pin by {
      AtoiDec(pin, []);
      assert Dec(pin) + [] == p;
    }
    assert Atoi(v) == value by {
      AtoiDec(value, []);
      assert Dec(value) + [] == v;
    }
  }

  /** What the device sends, the device's own parser reads back. */
  lemma TelemetryRoundTrip(pin: u32, value: u32)
    requires 70 <= pin <= 99
    ensures ParseLine(TM4CToBlynk(pin, value)) == Some(Message(pin, value))
  {
    EncodedLineParses(pin, value);
  }

  /** The documented example: value 512 on pin 74. */
  lemma TelemetryExample()
    ensures TM4CToBlynk(74, 512) == "74,512,0.0\n"
    ensures TM4CToBlynk(60, 512) == [] && TM4CToBlynk(100, 512) == []
  {
  }

  /** Delivering the same message twice leaves the bridge as delivering it
      once, except the meridiem pin, which toggles back. */
  lemma DispatchTwice(b: Bridge, pin: u32, value: u32)
    ensures var once := Dispatch(b, pin, value).0;
      pin != 5 ==> Dispatch(once, pin, value).0 == once
    ensures pin == 5 ==> Dispatch(Dispatch(b, pin, value).0, pin, value).0.clock.live == b.clock.live
  {
    var once := Dispatch(b, pin, value).0;
    if 2 <= pin <= 4 && value == 1 {
      SetModeIdempotent(b.clock, RequestedMode(pin));
    }
    if pin == 5 && b.editTime {
      ToggleMeridiemInvolution(b.clock);
    }
  }

  /** Pin 2 returns to Clock mode from SetAlarm and raises the entry
      flag; in Clock mode it changes nothing. */
  lemma ClockPinExample(b: Bridge)
    ensures b.clock.mode == SetAlarmMode ==>
      Dispatch(b, 2, 1).0.clock.mode == ClockMode && Dispatch(b, 2, 1).0.clock.initMode
    ensures b.clock.mode == ClockMode ==> Dispatch(b, 2, 1) == (b, [])
  {
  }

  lemma ArmLineText()
    ensures NatStr(9) + "," + NatStr(1) + TelemetryTail == "9,1,0.0\n"
    ensures NatStr(9) + "," + NatStr(0) + TelemetryTail == "9,0,0.0\n"
  {
  }

  lemma ArmLinesParse()
    ensures ParseLine("9,1,0.0\n") == Some(Message(9, 1))
    ensures ParseLine("9,0,0.0\n") == Some(Message(9, 0))
  {
    EncodedLineParses(9, 1);
    EncodedLineParses(9, 0);
    ArmLineText();
  }

  lemma ArmLinesDispatch(b: Bridge)
    ensures BlynkToTM4C(b, Some("9,1,0.0\n")) == Some(Dispatch(b, 9, 1))
    ensures BlynkToTM4C(b, Some("9,0,0.0\n")) == Some(Dispatch(b, 9, 0))
  {
    ArmLinesParse();
  }

  lemma ArmDispatch(b: Bridge)
    ensures Dispatch(b, 9, 1) == (b.(armed := true), [AlarmStatus(AlarmOnText)])
  {
  }

  lemma DisarmDispatch(b: Bridge)
    ensures Dispatch(b, 9, 0) == (b.(armed := false), [AlarmStatus(AlarmOffText), DisableAlarm])
  {
  }

  /** Arming over the link shows the status. */
  lemma ArmExample(b: Bridge)
    ensures BlynkToTM4C(b, Some("9,1,0.0\n")) == Some((b.(armed := true), [AlarmStatus(AlarmOnText)]))
  {
    ArmLinesDispatch(b);
    ArmDispatch(b);
  }

  /** Disarming over the link also tears the alarm tone down. */
  lemma DisarmExample(b: Bridge)
    ensures BlynkToTM4C(b, Some("9,0,0.0\n"))
      == Some((b.(armed := false), [AlarmStatus(AlarmOffText), DisableAlarm]))
  {
    ArmLinesDispatch(b);
    DisarmDispatch(b);
  }

  /** `char Pin_Number[2]` */
  const PinNumberSize: nat := 2

  /** A two-digit pin and its NUL need three bytes: `strcpy` into the
      two-byte `Pin_Number` overruns it for pins 10 to 99. */
  lemma PinNumberOverflow(pin: nat)
    requires 10 <= pin <= 99
    ensures !FitsBuffer(NatStr(pin), PinNumberSize)
  {
  }

  const CorrectedPinNumberSize: nat := 3

  /** Every pin of the 0..99 numbering fits a three-byte buffer. */
  lemma PinNumberFitsCorrected(pin: nat)
    requires pin <= 99
    ensures FitsBuffer(NatStr(pin), CorrectedPinNumberSize)
  {
  }
}

=== FILE: carith.dfy ===
/** C integer semantics the firmware relies on, written out over Dafny's
    unbounded integers: truncating division, fixed-width conversions and
    the small value types the drivers take. */
module CArith {

  /** A value that may be absent; `None` also stands for "the C code has
      undefined behaviour here". */
  datatype Option<+T> = None | Some(value: T)

  const TwoTo16: int := 0x1_0000
  const TwoTo31: int := 0x8000_0000
  const TwoTo32: int := 0x1_0000_0000

  type u16 = x: int | 0 <= x < TwoTo16
  type u32 = x: int | 0 <= x < TwoTo32

  function Abs(x: int): (r: nat)
    ensures r == x || r == -x
  {
    if x < 0 then -x else x
  }

  function Max(a: int, b: int): (r: int)
    ensures r >= a && r >= b
    ensures r == a || r == b
  {
    if a >= b then a else b
  }

  /** C's `/`: the quotient truncated toward zero, so the remainder
      `a - q * b` is smaller than the divisor and carries the sign of `a`. */
  function CDiv(a: int, b: int): (q: int)
    requires b != 0
    ensures Abs(a - q * b) < Abs(b)
    ensures a >= 0 ==> a - q * b >= 0
    ensures a <= 0 ==> a - q * b <= 0
  {
    if b > 0 then
      (if a >= 0 then a / b else -((-a) / b))
    else
      (if a >= 0 then -(a / (-b)) else (-a) / (-b))
  }

  /** Conversion of any integer to `uint32_t` (reduction modulo 2^32). */
  function ToU32(x: int): (r: u32)
    ensures (r - x) % TwoTo32 == 0
    ensures 0 <= x < TwoTo32 ==> r == x
  {
    x % TwoTo32
  }

  /** Conversion of a `uint32_t` to `int` on a two's-complement target. */
  function ToI32(x: u32): (r: int)
    ensures -TwoTo31 <= r < TwoTo31
    ensures ToU32(r) == x
  {
    if x < TwoTo31 then x else x - TwoTo32
  }

  /** Negating numerator and denominator leaves a truncating quotient unchanged. */
  lemma CDivNegateBoth(a: int, b: int)
    requires b != 0
    ensures CDiv(-a, -b) == CDiv(a, b)
  {
  }

  /** For a non-negative numerator and positive divisor C's `/` is floor division. */
  lemma CDivNonNegative(a: int, b: int)
    requires a >= 0 && b > 0
    ensures CDiv(a, b) == a / b
  {
  }

  /** A quotient of a value squeezed between two multiples of the divisor
      is squeezed between the two factors. */
  lemma DivBetween(x: int, d: int, lo: int, hi: int)
    requires d > 0 && lo * d <= x <= hi * d
    ensures lo <= x / d <= hi
  {
    var q := x / d;
    assert x == q * d + x % d && 0 <= x % d < d;
    if q < lo {
      assert (q + 1) * d <= lo * d by {
        assert q + 1 <= lo;
        MulMonotone(q + 1, lo, d);
      }
      assert false;
    }
    if q > hi {
      assert (hi + 1) * d <= q * d by {
        MulMonotone(hi + 1, q, d);
      }
      assert false;
    }
  }

  /** C's `/` divides an exact multiple exactly. */
  lemma CDivMultiple(a: int, b: int)
    requires b != 0
    ensures CDiv(a * b, b) == a
  {
    ExactQuotient(a * b, b, a);
  }

  /** Floor division of an exact multiple, for the divisor and its negation. */
  lemma ExactQuotient(m: int, b: int, a: int)
    requires b != 0 && m == a * b
    ensures m >= 0 && b > 0 ==> m / b == a
    ensures m < 0 && b > 0 ==> (-m) / b == -a
    ensures m >= 0 && b < 0 ==> m / (-b) == -a
    ensures m < 0 && b < 0 ==> (-m) / (-b) == a
  {
    if b > 0 {
      if m >= 0 {
        DivBetween(m, b, a, a);
      } else {
        assert -m == (-a) * b;
        DivBetween(-m, b, -a, -a);
      }
    } else {
      if m >= 0 {
        assert m == (-a) * (-b);
        DivBetween(m, -b, -a, -a);
      } else {
        assert -m == a * (-b);
        DivBetween(-m, -b, a, a);
      }
    }
  }

  lemma MulMonotone(a: int, b: int, d: int)
    requires a <= b && d >= 0
    ensures a * d <= b * d
  {
    assert b * d - a * d == (b - a) * d;
  }
}

=== FILE: clock.dfy ===
/** The clock and its mode machine (GardenTelemetry/clock.c): the live
    h/m/s/meridiem fields, the saved (`prev*`) and alarm copies they are
    swapped with, the mode and its one-shot `initMode` flag, and the two
    dirty flags the renderers consume. Every critical section of the
    source is one step here; drawing is returned as `Output` values. */
module Clock {
  import opened CArith
  import opened CText

  /** The two strings `merridian` can point at: `am` and `pm`. */
  datatype Meridiem = AM | PM

  function MeridiemText(m: Meridiem): (s: string)
    ensures |s| == 2 && s[1] == 'm'
    ensures s[0] == 'a' <==> m == AM
  {
    if m == AM then "am" else "pm"
  }

  /** `swapMerridian`: "am" becomes "pm", and anything else becomes "am". */
  function Flip(m: Meridiem): (r: Meridiem)
    ensures r != m
  {
    if m == AM then PM else AM
  }

  /** `CLOCK_MODE` (0) and `SET_ALARM_MODE` (1) of clock.h, and the graph
      mode the bridge requests; its number is defined outside the modelled
      files, and all that matters here is that it is a third mode. */
  datatype Mode = ClockMode | SetAlarmMode | GraphSensorsMode

  /** One h/m/s/meridiem group. The fields are C `int`s and the setters do
      not validate them, so any integer may appear. */
  datatype Time = Time(hours: int, minutes: int, seconds: int, meridiem: Meridiem)

  /** The ranges a 12-hour clock face shows. */
  predicate Valid(t: Time) {
    1 <= t.hours <= 12 && 0 <= t.minutes <= 59 && 0 <= t.seconds <= 59
  }

  /** The globals of clock.c. `live` is what `updateTime` advances and the
      renderers show; `prev` holds the clock while the alarm is edited in
      `live`; `alarm` is what the clock is compared with. */
  datatype ClockState = ClockState(
    mode: Mode,
    initMode: bool,
    live: Time,
    prev: Time,
    alarm: Time,
    timeChanged: bool,
    minuteChanged: bool)

  /** The initial values of the globals. */
  const Initial: ClockState := ClockState(
    ClockMode, true,
    Time(11, 59, 40, AM),
    Time(11, 59, 50, AM),
    Time(12, 0, 0, AM),
    false, false)

  /** Timer0 period for `updateTime`: one second of the 80 MHz bus clock. */
  const SecondPeriod: int := 80_000_000

  /** What the renderers ask of the display and the alarm tone. */
  datatype Output =
    | ShowTitle(title: string)          // clear the screen, print the mode title
    | StartSecondTimer(period: int)     // Timer0_Init(&updateTime, period)
    | DrawHands(hours: int, minutes: int) // clock-face bitmap and both hands
    | ShowTime(text: string)            // displayCurrentTime
    | SetOffAlarm                       // setOffAlarm: PWM0A_Init(40000, 30000)

  const ClockTitle: string := "Clock Mode"
  const SetAlarmTitle: string := "Setting Alarm"

  // ---------------------------------------------------------------------
  // Time model

  /** The h/m/s/meridiem part of `updateTime`: three sequential tests,
      each on equality, so out-of-range values are carried as the code
      carries them. */
  function Tick(t: Time): (r: Time)
    ensures Valid(t) ==> Valid(r)
    ensures Valid(t) ==> (r.seconds == 0 <==> t.seconds == 59)
    ensures Valid(t) ==>
      (r.meridiem != t.meridiem <==> t.hours == 11 && t.minutes == 59 && t.seconds == 59)
    ensures Valid(t) && t.hours == 12 && t.minutes == 59 && t.seconds == 59 ==>
      r == Time(1, 0, 0, t.meridiem)
  {
    var s := t.seconds + 1;
    var (s, m) := if s == 60 then (0, t.minutes + 1) else (s, t.minutes);
    var (m, h, mer) :=
      if m == 60 then
        (0, t.hours + 1, if t.hours + 1 == 12 then Flip(t.meridiem) else t.meridiem)
      else (m, t.hours, t.meridiem);
    var h := if h == 13 then 1 else h;
    Time(h, m, s, mer)
  }

  /** `updateTime`, the 1 Hz Timer0 task. */
  function UpdateTime(c: ClockState): (r: ClockState)
    ensures r.live == Tick(c.live) && r.timeChanged
    ensures c.live.seconds == 59 ==> r.minuteChanged
    ensures c.live.seconds != 59 ==> r.minuteChanged == c.minuteChanged
    ensures Valid(c.live) ==> Valid(r.live)
    ensures r.(live := c.live, timeChanged := c.timeChanged, minuteChanged := c.minuteChanged) == c
  {
    c.(live := Tick(c.live),
       timeChanged := true,
       minuteChanged := c.minuteChanged || c.live.seconds + 1 == 60)
  }

  /** `setHour`: stores the argument unvalidated and marks the time dirty. */
  function SetHour(c: ClockState, value: int): (r: ClockState)
    ensures r.live.hours == value && r.timeChanged
    ensures r.(live := c.live, timeChanged := c.timeChanged) == c
    ensures r.live.(hours := c.live.hours) == c.live
  {
    c.(live := c.live.(hours := value), timeChanged := true)
  }

  /** `setMinute`: stores the argument unvalidated and marks the time dirty. */
  function SetMinute(c: ClockState, value: int): (r: ClockState)
    ensures r.live.minutes == value && r.timeChanged
    ensures r.(live := c.live, timeChanged := c.timeChanged) == c
    ensures r.live.(minutes := c.live.minutes) == c.live
  {
    c.(live := c.live.(minutes := value), timeChanged := true)
  }

  /** `toggleMerridian`: flips am/pm and marks the time dirty. */
  function ToggleMeridiem(c: ClockState): (r: ClockState)
    ensures r.live.meridiem != c.live.meridiem && r.timeChanged
    ensures r.(live := c.live, timeChanged := c.timeChanged) == c
    ensures r.live.(meridiem := c.live.meridiem) == c.live
  {
    c.(live := c.live.(meridiem := Flip(c.live.meridiem)), timeChanged := true)
  }

  /** Toggling twice gives back the original time. */
  lemma ToggleMeridiemInvolution(c: ClockState)
    ensures ToggleMeridiem(ToggleMeridiem(c)).live == c.live
    ensures ToggleMeridiem(ToggleMeridiem(c)) == c.(timeChanged := true)
  {
  }

  // ---------------------------------------------------------------------
  // Mode machine

  /** `setMode`: a request for a different mode raises `initMode`; asking
      for the current mode leaves the flag as it was. */
  function SetMode(c: ClockState, m: Mode): (r: ClockState)
    ensures r.mode == m
    ensures r.initMode == (c.initMode || m != c.mode)
    ensures m == c.mode ==> r == c
    ensures r.(mode := c.mode, initMode := c.initMode) == c
  {
    if m != c.mode then c.(mode := m, initMode := true) else c
  }

  /** Repeating a mode request changes nothing more. */
  lemma SetModeIdempotent(c: ClockState, m: Mode)
    ensures SetMode(SetMode(c, m), m) == SetMode(c, m)
  {
  }

  /** The state change of `setAlarmMode`'s entry block: save the clock in
      `prev`, load the alarm into the live fields for editing. */
  function EnterSetAlarm(c: ClockState): (r: ClockState)
    ensures r.prev == c.live && r.live == c.alarm && r.alarm == c.alarm
    ensures !r.initMode && r.timeChanged
    ensures r.mode == c.mode && r.minuteChanged == c.minuteChanged
  {
    c.(initMode := false, prev := c.live, live := c.alarm, timeChanged := true)
  }

  /** The state change of `clockMode`'s entry block: keep the edited live
      fields as the alarm, restore the clock from `prev`. */
  function EnterClock(c: ClockState): (r: ClockState)
    ensures r.alarm == c.live && r.live == c.prev && r.prev == c.prev
    ensures !r.initMode && r.timeChanged
    ensures r.mode == c.mode && r.minuteChanged == c.minuteChanged
  {
    c.(initMode := false, alarm := c.live, live := c.prev, timeChanged := true)
  }

  /** The alias swap round-trips: whatever the live fields hold after
      editing becomes the alarm, and the clock comes back exactly. */
  lemma AliasSwapRoundTrip(c: ClockState, edited: Time)
    ensures EnterClock(EnterSetAlarm(c).(live := edited)).live == c.live
    ensures EnterClock(EnterSetAlarm(c).(live := edited)).alarm == edited
  {
  }

  /** The alarm test of `clockMode`: hours, minutes and seconds only. */
  predicate AlarmMatches(live: Time, alarm: Time) {
    live.hours == alarm.hours && live.minutes == alarm.minutes && live.seconds == alarm.seconds
  }

  /** The texts of the `ShowTime` outputs, in order. */
  function ShownTimes(outs: seq<Output>): seq<string> {
    if outs == [] then []
    else (if outs[0].ShowTime? then [outs[0].text] else []) + ShownTimes(outs[1..])
  }

  lemma {:induction false} ShownTimesConcat(a: seq<Output>, b: seq<Output>)
    ensures ShownTimes(a + b) == ShownTimes(a) + ShownTimes(b)
    decreases |a|
  {
    if a == [] {
      assert a + b == b;
    } else {
      assert (a + b)[1..] == a[1..] + b;
      ShownTimesConcat(a[1..], b);
    }
  }

  lemma ShownTimesOne(o: Output)
    ensures ShownTimes([o]) == if o.ShowTime? then [o.text] else []
  {
    assert [o][1..] == [];
  }

  /** A list of outputs none of which shows the time. */
  lemma ShownTimesNone(outs: seq<Output>)
    requires forall i :: 0 <= i < |outs| ==> !outs[i].ShowTime?
    ensures ShownTimes(outs) == []
  {
    if outs != [] {
      ShownTimesNone(outs[1..]);
    }
  }

  /** The entry block of `clockMode`, when `initMode` is raised. */
  function ClockEntry(c: ClockState): (r: (ClockState, seq<Output>))
    ensures c.initMode ==> r.0 == EnterClock(c)
    ensures !c.initMode ==> r.0 == c && r.1 == []
    ensures ShownTimes(r.1) == [] && SetOffAlarm !in r.1
  {
    if c.initMode then
      var e := EnterClock(c);
      var outs := [ShowTitle(ClockTitle), StartSecondTimer(SecondPeriod), DrawHands(e.live.hours, e.live.minutes)];
      ShownTimesNone(outs);
      (e, outs)
    else (c, [])
  }

  /** The `timeChanged` block of `clockMode`: consume the flag, show the
      time, and sound the alarm when h/m/s equal the alarm's. */
  function ClockTimeStep(c: ClockState): (r: (ClockState, seq<Output>))
    ensures r.0 == c.(timeChanged := false)
    ensures ShownTimes(r.1) == (if c.timeChanged then [TimeText(c.live)] else [])
    ensures SetOffAlarm in r.1 <==> c.timeChanged && AlarmMatches(c.live, c.alarm)
  {
    if c.timeChanged then
      var outs := [ShowTime(TimeText(c.live))] + (if AlarmMatches(c.live, c.alarm) then [SetOffAlarm] else []);
      ShownTimesOne(ShowTime(TimeText(c.live)));
      ShownTimesNone(outs[1..]);
      ShownTimesConcat([ShowTime(TimeText(c.live))], outs[1..]);
      assert outs == [ShowTime(TimeText(c.live))] + outs[1..];
      (c.(timeChanged := false), outs)
    else (c, [])
  }

  /** The `minuteChanged` block of `clockMode`: consume the flag, redraw the hands. */
  function ClockMinuteStep(c: ClockState): (r: (ClockState, seq<Output>))
    ensures r.0 == c.(minuteChanged := false)
    ensures ShownTimes(r.1) == [] && SetOffAlarm !in r.1
  {
    if c.minuteChanged then
      var outs := [DrawHands(c.live.hours, c.live.minutes)];
      ShownTimesNone(outs);
      (c.(minuteChanged := false), outs)
    else (c, [])
  }

  /** One call of `clockMode` from the main loop. */
  function ClockModePoll(c: ClockState): (r: (ClockState, seq<Output>))
    ensures !r.0.initMode && !r.0.timeChanged && !r.0.minuteChanged
    ensures r.0.mode == c.mode
    ensures c.initMode ==> r.0.live == c.prev && r.0.alarm == c.live && r.0.prev == c.prev
    ensures !c.initMode ==> r.0.live == c.live && r.0.alarm == c.alarm && r.0.prev == c.prev
    ensures ShownTimes(r.1) == (if c.initMode || c.timeChanged then [TimeText(r.0.live)] else [])
    ensures SetOffAlarm in r.1 <==>
      (c.initMode || c.timeChanged)
      && r.0.live.hours == r.0.alarm.hours
      && r.0.live.minutes == r.0.alarm.minutes
      && r.0.live.seconds == r.0.alarm.seconds
  {
    var (c1, entry) := ClockEntry(c);
    var (c2, time) := ClockTimeStep(c1);
    var (c3, hands) := ClockMinuteStep(c2);
    ShownTimesConcat(entry, time);
    ShownTimesConcat(entry + time, hands);
    (c3, entry + time + hands)
  }

  /** One call of `setAlarmMode` from the main loop. It neither stops the
      1 Hz task nor consumes `minuteChanged`, and never sounds the alarm. */
  function SetAlarmModePoll(c: ClockState): (r: (ClockState, seq<Output>))
    ensures !r.0.initMode && !r.0.timeChanged
    ensures r.0.minuteChanged == c.minuteChanged && r.0.mode == c.mode
    ensures c.initMode ==> r.0.prev == c.live && r.0.live == c.alarm && r.0.alarm == c.alarm
    ensures !c.initMode ==> r.0.live == c.live && r.0.alarm == c.alarm && r.0.prev == c.prev
    ensures ShownTimes(r.1) == (if c.initMode || c.timeChanged then [TimeText(r.0.live)] else [])
    ensures SetOffAlarm !in r.1
  {
    var (c1, entry) :=
      if c.initMode then
        var e := EnterSetAlarm(c);
        (e, [ShowTitle(SetAlarmTitle), DrawHands(e.live.hours, e.live.minutes)])
      else (c, []);
    ShownTimesNone(entry);
    if c1.timeChanged then
      var outs := [ShowTime(TimeText(c1.live)), DrawHands(c1.live.hours, c1.live.minutes)];
      ShownTimesOne(outs[0]);
      ShownTimesNone(outs[1..]);
      ShownTimesConcat([outs[0]], outs[1..]);
      assert outs == [outs[0]] + outs[1..];
      ShownTimesConcat(entry, outs);
      (c1.(timeChanged := false), entry + outs)
    else (c1, entry)
  }

  /** Entering SetAlarm from Clock, editing the live fields to any value,
      and going back to Clock restores the clock and stores the edit as
      the alarm. */
  lemma {:induction false} EditAlarmRoundTrip(c: ClockState, edited: Time)
    requires c.mode == ClockMode && !c.initMode
    ensures
      var a := SetAlarmModePoll(SetMode(c, SetAlarmMode)).0;
      var b := ClockModePoll(SetMode(a.(live := edited), ClockMode)).0;
      b.live == c.live && b.alarm == edited && b.mode == ClockMode && !b.initMode
  {
    var s := SetMode(c, SetAlarmMode);
    assert s.initMode;
    var a := SetAlarmModePoll(s).0;
    assert a.prev == c.live && a.mode == SetAlarmMode;
    var t := SetMode(a.(live := edited), ClockMode);
    assert t.initMode && t.prev == c.live && t.live == edited;
  }

  /** The Clock entry swap runs on every entry into Clock mode, not only
      after Setting Alarm's entry has saved the clock: a request for
      Setting Alarm answered by a request for Clock before `setAlarmMode`
      runs loads the stale `prev` as the clock and the running time as the
      alarm. */
  lemma {:induction false} QuickReturnSwaps(c: ClockState)
    requires c.mode == ClockMode && !c.initMode
    ensures
      var b := ClockModePoll(SetMode(SetMode(c, SetAlarmMode), ClockMode)).0;
      b.live == c.prev && b.alarm == c.live && b.mode == ClockMode
  {
    var s := SetMode(SetMode(c, SetAlarmMode), ClockMode);
    assert s.initMode && s.live == c.live && s.prev == c.prev;
  }

  /** The first `clockMode` call after start-up runs the same swap on the
      initial values: the clock starts from 11:59:50 and the alarm becomes
      11:59:40. */
  lemma FirstPollSwaps()
    ensures ClockModePoll(Initial).0.live == Time(11, 59, 50, AM)
    ensures ClockModePoll(Initial).0.alarm == Time(11, 59, 40, AM)
  {
  }

  // ---------------------------------------------------------------------
  // Digital time text

  /** `%d`, with a `0` in front when `pad` holds. */
  function ZeroPad(x: int, pad: bool): string {
    if pad then "0" + Dec(x) else Dec(x)
  }

  /** The text `displayCurrentTime` formats into its buffer: each field
      gets a leading `0` below ten (seconds: when not above nine). */
  function DisplayCurrentTime(hours: int, minutes: int, seconds: int, meridiem: Meridiem): (r: string)
    ensures 0 <= hours <= 99 && 0 <= minutes <= 99 && 0 <= seconds <= 99 ==>
      && |r| == 10
      && r[2] == ':' && r[5] == ':'
      && r[8..] == MeridiemText(meridiem)
      && AllDigits(r[0..2]) && DigitsValue(r[0..2]) == hours
      && AllDigits(r[3..5]) && DigitsValue(r[3..5]) == minutes
      && AllDigits(r[6..8]) && DigitsValue(r[6..8]) == seconds
  {
    var hh := ZeroPad(hours, hours < 10);
    var mm := ZeroPad(minutes, minutes < 10);
    var ss := ZeroPad(seconds, !(seconds > 9));
    var r := hh + ":" + mm + ":" + ss + MeridiemText(meridiem);
    if 0 <= hours <= 99 && 0 <= minutes <= 99 && 0 <= seconds <= 99 then
      TwoDigits(hours);
      TwoDigits(minutes);
      TwoDigits(seconds);
      TimeLayout(hh, mm, ss, MeridiemText(meridiem));
      r
    else r
  }

  /** Where the pieces of the time text sit when every piece has two
      characters. */
  lemma TimeLayout(hh: string, mm: string, ss: string, mer: string)
    requires |hh| == 2 && |mm| == 2 && |ss| == 2 && |mer| == 2
    ensures var r := hh + ":" + mm + ":" + ss + mer;
      && |r| == 10 && r[2] == ':' && r[5] == ':' && r[8..] == mer
      && r[0..2] == hh && r[3..5] == mm && r[6..8] == ss
  {
  }

  function TimeText(t: Time): string {
    DisplayCurrentTime(t.hours, t.minutes, t.seconds, t.meridiem)
  }

  lemma TwoDigits(x: int)
    requires 0 <= x <= 99
    ensures |ZeroPad(x, x < 10)| == 2 && AllDigits(ZeroPad(x, x < 10))
    ensures DigitsValue(ZeroPad(x, x < 10)) == x
  {
    if x < 10 {
      var s := ZeroPad(x, true);
      assert s == ['0', DigitChar(x)];
      assert s[..1] == ['0'];
      assert DigitsValue(['0']) == 0 by {
        assert ['0'][..0] == [];
      }
    }
  }

  /** `char timeBuffer[10]` */
  const TimeBufferSize: nat := 10

  /** `sprintf` writes the ten characters and a NUL: eleven bytes into the
      ten-byte `timeBuffer`, for every in-range time. */
  lemma TimeTextOverflowsBuffer(t: Time)
    requires Valid(t)
    ensures !FitsBuffer(TimeText(t), TimeBufferSize)
  {
  }

  /** The buffer size the format needs. */
  const CorrectedTimeBufferSize: nat := 11

  /** Every time of two-digit fields, valid or not, fits the corrected buffer. */
  lemma TimeTextFitsCorrectedBuffer(t: Time)
    requires 0 <= t.hours <= 99 && 0 <= t.minutes <= 99 && 0 <= t.seconds <= 99
    ensures FitsBuffer(TimeText(t), CorrectedTimeBufferSize)
  {
  }
}

=== FILE: clock_cycle.dfy ===
/** The 12-hour clock of clock.c read as a seconds-of-day counter. A valid
    time names one second of a 24-hour day: the meridiem chooses the half
    and 12 o'clock starts each half. `Tick` is then "add one second,
    modulo a day", which gives the 24-hour and 12-hour cycles. */
module ClockCycle {
  import opened Clock

  const Day: int := 86400
  const HalfDay: int := 43200

  /** The second of the day a valid time stands for. */
  function Index(t: Time): (i: int)
    requires Valid(t)
    ensures 0 <= i < Day
  {
    (t.hours % 12) * 3600 + t.minutes * 60 + t.seconds + (if t.meridiem == PM then HalfDay else 0)
  }

  /** The valid time that stands for second `i` of the day. */
  function FromIndex(i: int): (t: Time)
    requires 0 <= i < Day
    ensures Valid(t)
  {
    var j := i % HalfDay;
    var h := j / 3600;
    Time(if h == 0 then 12 else h, (j % 3600) / 60, j % 60, if i < HalfDay then AM else PM)
  }

  /** Decoding the index of a valid time gives the time back, ... */
  lemma FromIndexOfIndex(t: Time)
    requires Valid(t)
    ensures FromIndex(Index(t)) == t
  {
    var i := Index(t);
    var j := (t.hours % 12) * 3600 + t.minutes * 60 + t.seconds;
    assert 0 <= j < HalfDay;
    assert i % HalfDay == j;
    assert j / 3600 == t.hours % 12;
    assert j % 3600 == t.minutes * 60 + t.seconds;
    assert (j % 3600) / 60 == t.minutes;
    assert j % 60 == t.seconds;
  }

  /** ... and encoding a decoded second gives the second back, so `Index`
      maps the valid times onto the whole day. */
  lemma IndexOfFromIndex(i: int)
    requires 0 <= i < Day
    ensures Index(FromIndex(i)) == i
  {
    var j := i % HalfDay;
    assert j == i || j == i - HalfDay;
  }

  lemma IndexInjective(a: Time, b: Time)
    requires Valid(a) && Valid(b) && Index(a) == Index(b)
    ensures a == b
  {
    FromIndexOfIndex(a);
    FromIndexOfIndex(b);
  }

  /** `updateTime` advances the clock by exactly one second of the day. */
  lemma {:induction false} TickIndex(t: Time)
    requires Valid(t)
    ensures Index(Tick(t)) == (Index(t) + 1) % Day
  {
    var r := Tick(t);
    if t.seconds < 59 {
      assert r == t.(seconds := t.seconds + 1);
    } else if t.minutes < 59 {
      assert r == t.(minutes := t.minutes + 1, seconds := 0);
    } else if t.hours < 11 {
      assert r == Time(t.hours + 1, 0, 0, t.meridiem);
    } else if t.hours == 11 {
      assert r == Time(12, 0, 0, Flip(t.meridiem));
    } else {
      assert r == Time(1, 0, 0, t.meridiem);
    }
  }

  /** `k` calls of `updateTime`. */
  function Advance(t: Time, k: nat): Time
    decreases k
  {
    if k == 0 then t else Advance(Tick(t), k - 1)
  }

  lemma {:induction false} AdvanceIndex(t: Time, k: nat)
    requires Valid(t)
    ensures Valid(Advance(t, k))
    ensures Index(Advance(t, k)) == (Index(t) + k) % Day
    decreases k
  {
    if k > 0 {
      TickIndex(t);
      AdvanceIndex(Tick(t), k - 1);
      var i := Index(t);
      if i + 1 == Day {
        assert (i + k) % Day == (k - 1) % Day by {
          assert i + k == (k - 1) + Day;
        }
      }
    }
  }

  /** Flipping the meridiem moves the index by half a day. */
  lemma IndexFlip(t: Time)
    requires Valid(t)
    ensures Index(t.(meridiem := Flip(t.meridiem))) == (Index(t) + HalfDay) % Day
  {
    var base := (t.hours % 12) * 3600 + t.minutes * 60 + t.seconds;
    assert 0 <= base < HalfDay;
  }

  /** Adding whole days does not move a second of the day. */
  lemma AddWithinDay(i: int, k: nat)
    requires 0 <= i < Day
    ensures (i + k) % Day == (i + k % Day) % Day
  {
    var q := k / Day;
    assert k == Day * q + k % Day;
  }

  /** A number of `updateTime` calls that is a whole number of days is the
      identity on a valid clock. */
  lemma AdvanceWholeDays(t: Time, k: nat)
    requires Valid(t) && k % Day == 0
    ensures Advance(t, k) == t
  {
    var i := Index(t);
    AdvanceIndex(t, k);
    AddWithinDay(i, k);
    assert (i + k % Day) % Day == i;
    IndexInjective(Advance(t, k), t);
  }

  /** A number of calls that leaves half a day over flips only the meridiem. */
  lemma AdvanceHalfDays(t: Time, k: nat)
    requires Valid(t) && k % Day == HalfDay
    ensures Advance(t, k) == t.(meridiem := Flip(t.meridiem))
  {
    AdvanceIndex(t, k);
    IndexFlip(t);
    AddWithinDay(Index(t), k);
    IndexInjective(Advance(t, k), t.(meridiem := Flip(t.meridiem)));
  }

  /** 86400 calls of `updateTime` bring a valid clock back to where it was. */
  lemma DayCycle(t: Time)
    requires Valid(t)
    ensures Advance(t, Day) == t
  {
    AdvanceWholeDays(t, Day);
  }

  /** 43200 calls restore hours, minutes and seconds and flip the meridiem. */
  lemma HalfDayCycle(t: Time)
    requires Valid(t)
    ensures Advance(t, HalfDay) == t.(meridiem := Flip(t.meridiem))
  {
    AdvanceHalfDays(t, HalfDay);
  }

  /** 3600 calls move the hour on by one on the 12-hour face and keep
      minutes and seconds; the meridiem flips exactly when 11 o'clock
      becomes 12 o'clock. */
  lemma HourLater(t: Time)
    requires Valid(t)
    ensures var r := Advance(t, 3600);
      && r.minutes == t.minutes && r.seconds == t.seconds
      && r.hours == t.hours % 12 + 1
      && (r.meridiem != t.meridiem <==> t.hours == 11)
  {
    AdvanceOneHour(t, 3600);
  }

  lemma AdvanceOneHour(t: Time, k: nat)
    requires Valid(t) && k == 3600
    ensures Advance(t, k) == Time(t.hours % 12 + 1, t.minutes, t.seconds,
                                  if t.hours == 11 then Flip(t.meridiem) else t.meridiem)
  {
    var e := Time(t.hours % 12 + 1, t.minutes, t.seconds,
                  if t.hours == 11 then Flip(t.meridiem) else t.meridiem);
    AdvanceIndex(t, k);
    NextHourIndex(t, e);
    IndexInjective(Advance(t, k), e);
  }

  lemma NextHourIndex(t: Time, e: Time)
    requires Valid(t)
    requires e == Time(t.hours % 12 + 1, t.minutes, t.seconds,
                       if t.hours == 11 then Flip(t.meridiem) else t.meridiem)
    ensures Valid(e) && Index(e) == (Index(t) + 3600) % Day
  {
    var rest := t.minutes * 60 + t.seconds;
    var half := if t.meridiem == PM then HalfDay else 0;
    assert Index(t) == (t.hours % 12) * 3600 + rest + half;
    if t.hours == 11 {
      assert Index(t) + 3600 == HalfDay + rest + half;
      if t.meridiem == PM {
        assert (Index(t) + 3600) % Day == rest;
      }
    } else if t.hours == 12 {
      assert Index(e) == 3600 + rest + half;
    } else {
      assert Index(e) == (t.hours + 1) * 3600 + rest + half;
    }
  }
}

=== FILE: ctext.dfy ===
/** Text as the C library and the drivers produce and consume it: decimal
    rendering (`%d`, `OutUDec`), `atoi`, `strtok` on one delimiter, and
    whether a text plus its terminating NUL fits a fixed-size buffer. */
module CText {
  import opened CArith

  predicate IsDigit(c: char) {
    '0' <= c <= '9'
  }

  function DigitChar(d: int): (c: char)
    requires 0 <= d <= 9
    ensures IsDigit(c) && DigitValue(c) == d
  {
    ('0' as int + d) as char
  }

  function DigitValue(c: char): (d: int)
    requires IsDigit(c)
    ensures 0 <= d <= 9
  {
    c as int - '0' as int
  }

  predicate AllDigits(s: string) {
    forall i :: 0 <= i < |s| ==> IsDigit(s[i])
  }

  /** The value of a run of decimal digits, most significant first. */
  function DigitsValue(s: string): (v: nat)
    requires AllDigits(s)
  {
    if s == [] then 0
    else DigitsValue(s[..|s| - 1]) * 10 + DigitValue(s[|s| - 1])
  }

  /** Unsigned decimal rendering without leading zeros. */
  function NatStr(n: nat): (s: string)
    ensures |s| >= 1 && AllDigits(s)
    ensures DigitsValue(s) == n
    ensures s[0] == '0' ==> n == 0
    ensures n < 10 <==> |s| == 1
    ensures 10 <= n < 100 <==> |s| == 2
  {
    if n < 10 then [DigitChar(n)]
    else
      var s := NatStr(n / 10) + [DigitChar(n % 10)];
      assert s[..|s| - 1] == NatStr(n / 10);
      s
  }

  /** `printf("%d", n)`: a minus sign for negative values, then the digits. */
  function Dec(n: int): (s: string)
    ensures n >= 0 ==> s == NatStr(n)
    ensures n < 0 ==> s == "-" + NatStr(-n)
  {
    if n < 0 then "-" + NatStr(-n) else NatStr(n)
  }

  /** The longest prefix of `s` made of decimal digits. */
  function LeadingDigits(s: string): (d: string)
    ensures AllDigits(d) && d <= s
    ensures |d| < |s| ==> !IsDigit(s[|d|])
  {
    if s == [] || !IsDigit(s[0]) then []
    else [s[0]] + LeadingDigits(s[1..])
  }

  /** The characters C's `isspace` accepts. */
  predicate IsSpace(c: char) {
    c == ' ' || c == '\t' || c == '\n' || c == '\r' || c == '\U{000C}' || c == '\U{000B}'
  }

  function SkipSpaces(s: string): (t: string)
    ensures |t| <= |s| && t == s[|s| - |t|..]
    ensures t == [] || !IsSpace(t[0])
  {
    if s != [] && IsSpace(s[0]) then SkipSpaces(s[1..]) else s
  }

  /** C `atoi`: optional white space, an optional sign, then the leading
      digits; text without digits reads as 0. Overflow of `int` is
      undefined behaviour in C and is not modelled. */
  function Atoi(s: string): (v: int)
    ensures LeadingDigits(SkipSpaces(s)) == [] && (SkipSpaces(s) == [] || SkipSpaces(s)[0] !in "+-") ==> v == 0
  {
    var t := SkipSpaces(s);
    if t != [] && t[0] == '-' then 0 - DigitsValue(LeadingDigits(t[1..]))
    else if t != [] && t[0] == '+' then DigitsValue(LeadingDigits(t[1..]))
    else DigitsValue(LeadingDigits(t))
  }

  lemma {:induction false} LeadingDigitsOfPrefix(d: string, rest: string)
    requires AllDigits(d)
    requires rest == [] || !IsDigit(rest[0])
    ensures LeadingDigits(d + rest) == d
    decreases |d|
  {
    if d == [] {
      assert d + rest == rest;
    } else {
      assert (d + rest)[1..] == d[1..] + rest;
      LeadingDigitsOfPrefix(d[1..], rest);
      assert [d[0]] + d[1..] == d;
    }
  }

  /** `atoi` reads back what `%d` wrote, whatever follows the number as
      long as it does not start with another digit. */
  lemma AtoiDec(n: int, rest: string)
    requires rest == [] || !IsDigit(rest[0])
    ensures Atoi(Dec(n) + rest) == n
  {
    if n < 0 {
      var digits := NatStr(-n);
      assert Dec(n) == "-" + digits;
      assert Dec(n) + rest == ['-'] + (digits + rest);
      AtoiDigits(digits, rest, true);
    } else {
      assert Dec(n) == NatStr(n);
      AtoiDigits(NatStr(n), rest, false);
    }
  }

  lemma AtoiDigits(digits: string, rest: string, negative: bool)
    requires digits != [] && AllDigits(digits)
    requires rest == [] || !IsDigit(rest[0])
    ensures negative ==> Atoi(['-'] + (digits + rest)) == 0 - DigitsValue(digits)
    ensures !negative ==> Atoi(digits + rest) == DigitsValue(digits)
  {
    LeadingDigitsOfPrefix(digits, rest);
    var body := digits + rest;
    assert body[0] == digits[0];
    var s := if negative then ['-'] + body else body;
    assert !IsSpace(s[0]);
    assert SkipSpaces(s) == s;
    if negative {
      assert s[1..] == body;
    }
  }

  /** The longest prefix of `s` that contains no `sep`. */
  function Field(s: string, sep: char): (f: string)
    ensures f <= s && sep !in f
    ensures |f| < |s| ==> s[|f|] == sep
  {
    if s == [] || s[0] == sep then [] else [s[0]] + Field(s[1..], sep)
  }

  /** The tokens successive `strtok` calls return: maximal runs of
      characters other than `sep`; empty fields are skipped. */
  function Tokens(s: string, sep: char): (ts: seq<string>)
    ensures forall i :: 0 <= i < |ts| ==> ts[i] != [] && sep !in ts[i]
    ensures Concat(ts) == Without(s, sep)
    decreases |s|
  {
    if s == [] then []
    else if s[0] == sep then Tokens(s[1..], sep)
    else
      var f := Field(s, sep);
      WithoutSplit(f, s[|f|..], sep);
      assert s == f + s[|f|..];
      [f] + Tokens(s[|f|..], sep)
  }

  function Concat(ts: seq<string>): string {
    if ts == [] then [] else ts[0] + Concat(ts[1..])
  }

  /** `s` with every `sep` removed. */
  function Without(s: string, sep: char): string {
    if s == [] then []
    else (if s[0] == sep then [] else [s[0]]) + Without(s[1..], sep)
  }

  lemma {:induction false} WithoutSplit(a: string, b: string, sep: char)
    ensures Without(a + b, sep) == Without(a, sep) + Without(b, sep)
    ensures sep !in a ==> Without(a, sep) == a
    decreases |a|
  {
    WithoutConcat(a, b, sep);
    if sep !in a {
      WithoutNone(a, sep);
    }
  }

  lemma {:induction false} WithoutConcat(a: string, b: string, sep: char)
    ensures Without(a + b, sep) == Without(a, sep) + Without(b, sep)
    decreases |a|
  {
    if a == [] {
      assert a + b == b;
    } else {
      var head := if a[0] == sep then [] else [a[0]];
      assert (a + b)[0] == a[0] && (a + b)[1..] == a[1..] + b;
      assert Without(a + b, sep) == head + Without(a[1..] + b, sep);
      WithoutConcat(a[1..], b, sep);
      assert Without(a, sep) == head + Without(a[1..], sep);
    }
  }

  lemma {:induction false} WithoutNone(a: string, sep: char)
    requires sep !in a
    ensures Without(a, sep) == a
    decreases |a|
  {
    if a != [] {
      assert sep !in a[1..];
      WithoutNone(a[1..], sep);
      assert [a[0]] + a[1..] == a;
    }
  }

  /** A field followed by the delimiter comes out of `strtok` as the next token. */
  lemma TokensCons(f: string, rest: string, sep: char)
    requires f != [] && sep !in f
    ensures Tokens(f + [sep] + rest, sep) == [f] + Tokens(rest, sep)
  {
    var s := f + [sep] + rest;
    FieldOfPrefix(f, [sep] + rest, sep);
    assert s == f + ([sep] + rest);
    assert s[|f|..] == [sep] + rest;
    assert Tokens(s[|f|..], sep) == Tokens(rest, sep) by {
      assert ([sep] + rest)[1..] == rest;
    }
  }

  lemma {:induction false} FieldOfPrefix(f: string, rest: string, sep: char)
    requires sep !in f
    requires rest == [] || rest[0] == sep
    ensures Field(f + rest, sep) == f
    decreases |f|
  {
    if f == [] {
      assert f + rest == rest;
    } else {
      assert (f + rest)[1..] == f[1..] + rest;
      FieldOfPrefix(f[1..], rest, sep);
      assert [f[0]] + f[1..] == f;
    }
  }

  /** A text with no delimiter is a single token. */
  lemma TokensSingle(f: string, sep: char)
    requires f != [] && sep !in f
    ensures Tokens(f, sep) == [f]
  {
    FieldOfPrefix(f, [], sep);
    assert f + [] == f;
    assert f[|f|..] == [];
  }

  /** A delimiter separates tokens: the tokens of `a`, a delimiter and `b`
      are those of `a` followed by those of `b`. With `TokensSingle` this
      fixes the tokens of every line: the maximal delimiter-free runs. */
  lemma {:induction false} TokensSplit(a: string, b: string, sep: char)
    ensures Tokens(a + [sep] + b, sep) == Tokens(a, sep) + Tokens(b, sep)
    decreases |a|
  {
    var s := a + [sep] + b;
    if a == [] {
      assert s == [sep] + b && s[1..] == b;
    } else if a[0] == sep {
      assert s[0] == sep && s[1..] == a[1..] + [sep] + b;
      TokensSplit(a[1..], b, sep);
    } else {
      var f := Field(a, sep);
      if |f| == |a| {
        assert f == a;
        TokensCons(a, b, sep);
        TokensSingle(a, sep);
      } else {
        var rest := a[|f|..];
        assert a == f + rest && rest[0] == sep;
        FieldOfPrefix(f, rest + [sep] + b, sep);
        assert s == f + (rest + [sep] + b);
        assert s[|f|..] == rest + [sep] + b;
        assert Tokens(s, sep) == [f] + Tokens(rest + [sep] + b, sep);
        assert Tokens(a, sep) == [f] + Tokens(rest, sep);
        TokensSplit(rest, b, sep);
      }
    }
  }

  /** Whether `text` and its terminating NUL fit in a `capacity`-byte
      `char` array, as `strcpy`, `sprintf` and `ST7735_OutString` need. */
  predicate FitsBuffer(text: string, capacity: nat) {
    |text| + 1 <= capacity
  }
}

=== FILE: fixed.dfy ===
/** The fixed-point formatters of GardenTelemetry/fixed.c. Both fill a
    six-character field from the right: low digits first, a '.' at index
    3, and once the value is used up (but never before index 2) a lead
    character followed by spaces. */
module FixedPoint {
  import opened CArith
  import opened CText

  const DecimalPlace: int := 3
  const PrintWidth: int := 6
  const UpperRange: int := 10000
  const LowerRange: int := -10000
  /** `ST7735_uBinOut6` prints stars from this value on. */
  const BinaryLimit: int := 64000

  const DecimalStars: string := " **.**"
  const NegativeStars: string := "-**.**"
  const BinaryStars: string := "***.**"

  function Spaces(n: nat): (s: string)
    ensures |s| == n && forall i :: 0 <= i < n ==> s[i] == ' '
  {
    seq(n, _ => ' ')
  }

  /** `s` right-aligned in a field of `width` characters. */
  function LeftPad(s: string, width: nat): (r: string)
    requires |s| <= width
    ensures |r| == width && r[width - |s|..] == s
    ensures forall i :: 0 <= i < width - |s| ==> r[i] == ' '
  {
    Spaces(width - |s|) + s
  }

  /** The two digits after the point of a value counted in hundredths. */
  function Cents(v: nat): (s: string)
    ensures |s| == 2 && AllDigits(s)
    ensures DigitsValue(s) == v % 100
  {
    TwoDigitsValue(v / 10 % 10, v % 10);
    [DigitChar(v / 10 % 10), DigitChar(v % 10)]
  }

  lemma TwoDigitsValue(a: int, b: int)
    requires 0 <= a <= 9 && 0 <= b <= 9
    ensures DigitsValue([DigitChar(a), DigitChar(b)]) == 10 * a + b
  {
    var s := [DigitChar(a), DigitChar(b)];
    var first := [DigitChar(a)];
    assert s[..1] == first && first[..0] == [];
    assert DigitsValue(first) == a;
    assert DigitsValue(s) == DigitsValue(first) * 10 + b;
  }

  /** Reference rendering of `v` hundredths: an optional sign, the whole
      part without leading zeros, a point, two digits. */
  function Hundredths(sign: string, v: nat): string {
    sign + NatStr(v / 100) + "." + Cents(v)
  }

  /** The character loop of both formatters, for indices `0..i`: index `i`
      gets the next digit of `n`, except that index 3 is the point and that
      once `n` is 0 left of index 2 the index gets `lead` and every index
      to its left a space. */
  function Fill(i: int, n: nat, lead: char): (r: string)
    requires -1 <= i < PrintWidth
    ensures |r| == i + 1
    decreases i + 1
  {
    if i < 0 then []
    else if i == DecimalPlace then Fill(i - 1, n, lead) + ['.']
    else if n != 0 || i >= DecimalPlace - 1 then Fill(i - 1, n / 10, lead) + [DigitChar(n % 10)]
    else Spaces(i) + [lead]
  }

  /** Indices 0..2 of the loop: the whole part, right-aligned behind
      `lead`, or three digits when it has three. */
  lemma FillWhole(q: nat, lead: char)
    requires q < 1000
    requires lead == ' ' || (lead == '-' && q < 100)
    ensures var sign := if lead == '-' then "-" else "";
      |sign + NatStr(q)| <= 3 && Fill(2, q, lead) == LeftPad(sign + NatStr(q), 3)
  {
    if q < 10 {
      FillOneDigit(q, lead);
    } else if q < 100 {
      FillTwoDigits(q, lead);
    } else {
      FillThreeDigits(q, lead);
    }
  }

  lemma FillOneDigit(q: nat, lead: char)
    requires q < 10
    ensures var sign := if lead == '-' then "-" else "";
      lead in " -" ==> Fill(2, q, lead) == LeftPad(sign + NatStr(q), 3)
  {
    assert Fill(2, q, lead) == Fill(1, 0, lead) + [DigitChar(q)];
    assert Fill(1, 0, lead) == Spaces(1) + [lead];
    assert Spaces(1) == [' '];
    assert NatStr(q) == [DigitChar(q)];
    if lead == '-' {
      assert LeftPad("-" + [DigitChar(q)], 3) == Spaces(1) + ['-', DigitChar(q)];
    } else {
      assert LeftPad([DigitChar(q)], 3) == Spaces(2) + [DigitChar(q)];
      assert Spaces(2) == [' ', ' '];
    }
  }

  lemma FillTwoDigits(q: nat, lead: char)
    requires 10 <= q < 100
    ensures var sign := if lead == '-' then "-" else "";
      lead in " -" ==> Fill(2, q, lead) == LeftPad(sign + NatStr(q), 3)
  {
    var t := q / 10;
    assert Fill(2, q, lead) == Fill(1, t, lead) + [DigitChar(q % 10)];
    assert Fill(1, t, lead) == Fill(0, 0, lead) + [DigitChar(t)];
    assert Fill(0, 0, lead) == Spaces(0) + [lead];
    assert NatStr(q) == NatStr(t) + [DigitChar(q % 10)];
    assert NatStr(t) == [DigitChar(t)];
    assert Fill(2, q, lead) == [lead, DigitChar(t), DigitChar(q % 10)];
    if lead == '-' {
      assert LeftPad("-" + NatStr(q), 3) == Spaces(0) + ['-', DigitChar(t), DigitChar(q % 10)];
    } else {
      assert LeftPad(NatStr(q), 3) == Spaces(1) + [DigitChar(t), DigitChar(q % 10)];
      assert Spaces(1) == [' '];
    }
  }

  lemma FillThreeDigits(q: nat, lead: char)
    requires 100 <= q < 1000
    ensures Fill(2, q, lead) == LeftPad(NatStr(q), 3)
  {
    var t := q / 10;
    var u := t / 10;
    assert 1 <= u <= 9;
    assert Fill(2, q, lead) == Fill(1, t, lead) + [DigitChar(q % 10)];
    assert Fill(1, t, lead) == Fill(0, u, lead) + [DigitChar(t % 10)];
    assert Fill(0, u, lead) == Fill(-1, u / 10, lead) + [DigitChar(u % 10)];
    assert NatStr(q) == NatStr(t) + [DigitChar(q % 10)];
    assert NatStr(t) == NatStr(u) + [DigitChar(t % 10)];
    assert NatStr(u) == [DigitChar(u)];
    assert LeftPad(NatStr(q), 3) == Spaces(0) + NatStr(q);
  }

  /** The loop yields the reference text, padded to six. A '-' lead is
      only reached for values of at most four digits. */
  lemma FillIsHundredths(n: nat, lead: char)
    requires n < 100000
    requires lead == ' ' || (lead == '-' && n < 10000)
    ensures var sign := if lead == '-' then "-" else "";
      |Hundredths(sign, n)| <= PrintWidth
      && Fill(PrintWidth - 1, n, lead) == LeftPad(Hundredths(sign, n), PrintWidth)
  {
    var sign := if lead == '-' then "-" else "";
    var q := n / 100;
    FillWhole(q, lead);
    FillTail(n, lead);
    var whole := sign + NatStr(q);
    assert Fill(5, n, lead) == Spaces(3 - |whole|) + whole + "." + Cents(n);
    assert Hundredths(sign, n) == whole + "." + Cents(n);
  }

  /** Indices 3..5 of the loop: the point and the two cents digits. */
  lemma FillTail(n: nat, lead: char)
    ensures Fill(5, n, lead) == Fill(2, n / 100, lead) + "." + Cents(n)
  {
    var q := n / 100;
    assert n / 10 / 10 == q;
    assert Fill(5, n, lead) == Fill(4, n / 10, lead) + [DigitChar(n % 10)];
    assert Fill(4, n / 10, lead) == Fill(3, q, lead) + [DigitChar(n / 10 % 10)];
    assert Fill(3, q, lead) == Fill(2, q, lead) + ['.'];
  }

  /** `ST7735_sDecOut2`: a signed value in hundredths, six characters. */
  function SDecOut2(n: int): (r: string)
    ensures |r| == PrintWidth
    ensures n >= UpperRange ==> r == DecimalStars
    ensures n <= LowerRange ==> r == NegativeStars
    ensures LowerRange < n < UpperRange ==>
      r == LeftPad(Hundredths(if n < 0 then "-" else "", Abs(n)), PrintWidth)
  {
    var negative := n < 0;
    if n >= UpperRange then DecimalStars
    else if n <= LowerRange then NegativeStars
    else
      var lead := if negative then '-' else ' ';
      FillIsHundredths(Abs(n), lead);
      Fill(PrintWidth - 1, Abs(n), lead)
  }

  /** Where the whole part of an in-range `ST7735_sDecOut2` text starts. */
  function WholeStart(n: int): (k: int)
    requires LowerRange < n < UpperRange
    ensures 0 <= k <= 2
  {
    3 - |NatStr(Abs(n) / 100)|
  }

  /** The shape of an in-range `ST7735_sDecOut2` text: the whole part as
      digits without a leading zero ending at index 2, the point at index 3,
      the two cents digits, and to the left of the whole part spaces, the
      last of them replaced by '-' exactly for negative values. */
  lemma SDecOut2Shape(n: int)
    requires LowerRange < n < UpperRange
    ensures var r, k := SDecOut2(n), WholeStart(n);
      && r[3] == '.'
      && AllDigits(r[k..3]) && DigitsValue(r[k..3]) == Abs(n) / 100
      && (k == 2 || r[k] != '0')
      && AllDigits(r[4..]) && DigitsValue(r[4..]) == Abs(n) % 100
      && (n < 0 ==> k >= 1 && r[..k] == Spaces(k - 1) + "-")
      && (n >= 0 ==> r[..k] == Spaces(k))
  {
    var r := SDecOut2(n);
    var sign := if n < 0 then "-" else "";
    var whole := NatStr(Abs(n) / 100);
    var cents := Cents(Abs(n));
    var pad := PrintWidth - |Hundredths(sign, Abs(n))|;
    assert |Hundredths(sign, Abs(n))| == |sign| + |whole| + 3;
    Layout(r, Spaces(pad), sign, whole, cents);
    if n < 0 {
      assert Spaces(pad) + sign == Spaces(pad) + "-";
    } else {
      assert Spaces(pad) + sign == Spaces(pad);
    }
  }

  /** Slicing a padded reference text back into its parts. */
  lemma Layout(r: string, pad: string, sign: string, whole: string, cents: string)
    requires r == pad + (sign + whole + "." + cents)
    requires |pad| + |sign| + |whole| == 3 && |cents| == 2
    ensures r[3] == '.' && r[|pad| + |sign|..3] == whole && r[4..] == cents
    ensures r[..|pad| + |sign|] == pad + sign
  {
  }

  /** `ST7735_uBinOut6`: a value in 64ths shown in hundredths, truncated. */
  function UBinOut6(n: u32): (r: string)
    ensures |r| == PrintWidth
    ensures n >= BinaryLimit ==> r == BinaryStars
    ensures n < BinaryLimit ==> r == LeftPad(Hundredths("", n * 100 / 64), PrintWidth)
  {
    if n >= BinaryLimit then BinaryStars
    else
      var v := n * 100 / 64;
      FillIsHundredths(v, ' ');
      Fill(PrintWidth - 1, v, ' ')
  }

  /** An in-range `ST7735_uBinOut6` text read back: right-aligned digits,
      the point at index 3, no sign, and the hundredths it spells are
      `100 * n / 64` rounded down, so they undershoot the exact value by
      less than one hundredth. */
  lemma UBinOut6Shape(n: u32)
    requires n < BinaryLimit
    ensures var r, k := UBinOut6(n), 3 - |NatStr(n * 100 / 64 / 100)|;
      && 0 <= k <= 2 && r[3] == '.' && r[..k] == Spaces(k)
      && AllDigits(r[k..3]) && (k == 2 || r[k] != '0')
      && AllDigits(r[4..])
      && var shown := DigitsValue(r[k..3]) * 100 + DigitsValue(r[4..]);
         64 * shown <= 100 * n < 64 * (shown + 1)
  {
    var r := UBinOut6(n);
    var v := n * 100 / 64;
    var whole := NatStr(v / 100);
    var pad := PrintWidth - |Hundredths("", v)|;
    assert |Hundredths("", v)| == |whole| + 3;
    Layout(r, Spaces(pad), "", whole, Cents(v));
    assert Spaces(pad) + "" == Spaces(pad);
    assert v / 100 * 100 + v % 100 == v;
  }

  /** Rows of the example table of `ST7735_sDecOut2`. */
  lemma SDecOut2TooLarge()
    ensures SDecOut2(12345) == " **.**"
  {
  }

  lemma SDecOut2TooSmall()
    ensures SDecOut2(-12345) == "-**.**"
  {
  }

  lemma SDecOut2Positive()
    ensures SDecOut2(2345) == " 23.45"
  {
    assert NatStr(23) == "23" by { assert NatStr(2) == "2"; }
    assert Cents(2345) == "45";
    assert Hundredths("", 2345) == "23.45";
  }

  lemma SDecOut2Negative()
    ensures SDecOut2(-8100) == "-81.00"
  {
    assert NatStr(81) == "81" by { assert NatStr(8) == "8"; }
    assert Cents(8100) == "00";
    assert Hundredths("-", 8100) == "-81.00";
  }

  lemma SDecOut2NegativeSmall()
    ensures SDecOut2(-102) == " -1.02"
  {
    assert NatStr(1) == "1";
    assert Cents(102) == "02";
    assert Hundredths("-", 102) == "-1.02";
  }

  lemma SDecOut2Fraction()
    ensures SDecOut2(31) == "  0.31"
  {
    assert NatStr(0) == "0";
    assert Cents(31) == "31";
    assert Hundredths("", 31) == "0.31";
  }

  /** Rows of the example table of `ST7735_uBinOut6`. The code agrees with
      the table except at 7500 and 63999, where truncation gives one
      hundredth less than the table prints. */
  lemma UBinOut6Zero()
    ensures UBinOut6(0) == "  0.00"
  {
    assert NatStr(0) == "0";
    assert Cents(0) == "00";
    assert Hundredths("", 0) == "0.00";
  }

  lemma UBinOut6Hundredth()
    ensures UBinOut6(1) == "  0.01"
  {
    assert 1 * 100 / 64 == 1;
    assert NatStr(0) == "0";
    assert Cents(1) == "01";
    assert Hundredths("", 1) == "0.01";
  }

  lemma UBinOut6ThirtyNine()
    ensures UBinOut6(25) == "  0.39"
  {
    assert 25 * 100 / 64 == 39;
    assert NatStr(0) == "0";
    assert Cents(39) == "39";
    assert Hundredths("", 39) == "0.39";
  }

  lemma UBinOut6Quarter()
    ensures UBinOut6(16) == "  0.25"
  {
    assert 16 * 100 / 64 == 25;
    assert NatStr(0) == "0";
    assert Cents(25) == "25";
    assert Hundredths("", 25) == "0.25";
  }

  lemma UBinOut6Two()
    ensures UBinOut6(128) == "  2.00"
  {
    assert 128 * 100 / 64 == 200;
    assert NatStr(2) == "2";
    assert Cents(200) == "00";
    assert Hundredths("", 200) == "2.00";
  }

  lemma UBinOut6Small()
    ensures UBinOut6(125) == "  1.95"
  {
    assert 125 * 100 / 64 == 195;
    assert NatStr(1) == "1";
    assert Cents(195) == "95";
    assert Hundredths("", 195) == "1.95";
  }

  lemma UBinOut6Medium()
    ensures UBinOut6(1250) == " 19.53"
  {
    assert 1250 * 100 / 64 == 1953;
    assert NatStr(19) == "19" by { assert NatStr(1) == "1"; }
    assert Cents(1953) == "53";
    assert Hundredths("", 1953) == "19.53";
  }

  lemma UBinOut6Truncates()
    ensures UBinOut6(7500) == "117.18"
  {
    assert 7500 * 100 / 64 == 11718;
    assert NatStr(117) == "117" by {
      assert NatStr(11) == "11" by { assert NatStr(1) == "1"; }
    }
    assert Cents(11718) == "18";
    assert Hundredths("", 11718) == "117.18";
  }

  lemma UBinOut6Largest()
    ensures UBinOut6(63999) == "999.98"
  {
    assert 63999 * 100 / 64 == 99998;
    assert NatStr(999) == "999" by {
      assert NatStr(99) == "99" by { assert NatStr(9) == "9"; }
    }
    assert Cents(99998) == "98";
    assert Hundredths("", 99998) == "999.98";
  }

  lemma UBinOut6TooLarge()
    ensures UBinOut6(64000) == "***.**"
  {
  }

  /** `char fixedNum[printWidth]` holds the six characters and no NUL, yet
      is handed to `ST7735_OutString`, which reads up to a NUL. */
  lemma FixedTextUnterminated(n: int, m: u32)
    requires LowerRange < n < UpperRange && m < BinaryLimit
    ensures !FitsBuffer(SDecOut2(n), PrintWidth)
    ensures !FitsBuffer(UBinOut6(m), PrintWidth)
  {
  }

  /** One more byte holds the terminator for every input. */
  lemma FixedTextFitsCorrected(n: int, m: u32)
    ensures FitsBuffer(SDecOut2(n), PrintWidth + 1)
    ensures FitsBuffer(UBinOut6(m), PrintWidth + 1)
  {
  }
}

=== FILE: line.dfy ===
/** The line rasteriser `ST7735_Line` of GardenTelemetry/fixed.c. It steps
    one pixel at a time along the axis with the larger extent and computes
    the other coordinate afresh at every step from the endpoints, with C's
    truncating division; the endpoint itself is never drawn. */
module Line {
  import opened CArith

  datatype Pixel = Pixel(x: int, y: int)

  /** The major coordinate after `k` steps toward the side `da` points to. */
  function Major(a1: int, da: int, k: int): int {
    if da > 0 then a1 + k else a1 - k
  }

  /** The minor coordinate after `k` steps, as a floor division with a
      non-negative numerator: `b1 + db * k / |da|` rounded down. */
  function Minor(b1: int, da: int, db: int, k: int): int
    requires da != 0
  {
    (b1 * Abs(da) + db * k) / Abs(da)
  }

  /** The minor coordinate starts at the first endpoint. */
  lemma MinorStart(b1: int, da: int, db: int)
    requires da != 0
    ensures Minor(b1, da, db, 0) == b1
  {
    assert b1 * Abs(da) + db * 0 == b1 * Abs(da);
    DivBetween(b1 * Abs(da), Abs(da), b1, b1);
  }

  /** Pixel `k` of the line from (x1, y1) to (x2, y2), in closed form. */
  function Traced(x1: int, y1: int, x2: int, y2: int, k: int): (p: Pixel)
    requires x1 != x2 || y1 != y2
  {
    var dx, dy := x2 - x1, y2 - y1;
    if Abs(dx) > Abs(dy) then Pixel(Major(x1, dx, k), Minor(y1, dx, dy, k))
    else Pixel(Minor(x1, dy, dx, k), Major(y1, dy, k))
  }

  /** The number of pixels drawn. */
  function Length(x1: int, y1: int, x2: int, y2: int): int {
    Max(Abs(x2 - x1), Abs(y2 - y1))
  }

  /** The code's expression for the minor coordinate at step `k`,
      `(b1 * da + sign * db * k) / da`, is the floor division of `Minor`:
      between the two endpoints the numerator and `da` never have opposite
      signs. */
  lemma MinorStep(b1: int, b2: int, da: int, db: int, s: int, k: int)
    requires da != 0 && b1 >= 0 && b2 >= 0 && db == b2 - b1
    requires s == CDiv(da, Abs(da)) && 0 <= k <= Abs(da)
    ensures CDiv(b1 * da + s * db * k, da) == Minor(b1, da, db, k)
  {
    var a := Abs(da);
    var m := b1 * a + db * k;
    MinorNumerator(b1, b2, a, db, k);
    UnitStep(da);
    if da > 0 {
      assert b1 * da + s * db * k == m;
    } else {
      assert b1 * da + s * db * k == -m;
    }
  }

  /** `Xdiff / abs(Xdiff)`: the direction of the major axis. */
  lemma UnitStep(da: int)
    requires da != 0
    ensures CDiv(da, Abs(da)) == (if da > 0 then 1 else -1)
  {
    CDivMultiple(1, Abs(da));
    if da < 0 {
      CDivMultiple(-1, Abs(da));
    }
  }

  lemma MinorNumerator(b1: int, b2: int, a: int, db: int, k: int)
    requires a > 0 && b1 >= 0 && b2 >= 0 && db == b2 - b1 && 0 <= k <= a
    ensures b1 * a + db * k >= 0
  {
    if db < 0 {
      MulMonotone(k, a, -db);
      assert b1 * a + db * k >= b1 * a + db * a == b2 * a;
      MulMonotone(0, b2, a);
    } else {
      MulMonotone(0, k, db);
      MulMonotone(0, b1, a);
    }
  }

  /** `v` lies between `a` and `b`, whichever of the two is larger. */
  predicate Between(v: int, a: int, b: int) {
    (a <= v <= b) || (b <= v <= a)
  }

  /** After `|da|` steps the minor coordinate reaches the far endpoint. */
  lemma MinorEnd(b1: int, b2: int, da: int)
    requires da != 0
    ensures Minor(b1, da, b2 - b1, Abs(da)) == b2
  {
    assert b1 * Abs(da) + (b2 - b1) * Abs(da) == b2 * Abs(da);
    DivBetween(b2 * Abs(da), Abs(da), b2, b2);
  }

  /** On the way the minor coordinate stays between the endpoints. */
  lemma MinorBetween(b1: int, b2: int, da: int, k: int)
    requires da != 0 && 0 <= k <= Abs(da)
    ensures Between(Minor(b1, da, b2 - b1, k), b1, b2)
  {
    var a := Abs(da);
    var db := b2 - b1;
    var m := b1 * a + db * k;
    assert b2 * a == b1 * a + db * a;
    if db >= 0 {
      MulMonotone(0, k, db);
      MulMonotone(k, a, db);
      DivBetween(m, a, b1, b2);
    } else {
      MulMonotone(k, a, -db);
      MulMonotone(0, k, -db);
      DivBetween(m, a, b2, b1);
    }
  }

  /** When the minor extent is at most the major one, consecutive minor
      coordinates differ by at most one. */
  lemma MinorAdjacent(b1: int, da: int, db: int, k: int)
    requires da != 0 && Abs(db) <= Abs(da)
    ensures -1 <= Minor(b1, da, db, k + 1) - Minor(b1, da, db, k) <= 1
  {
    var a := Abs(da);
    var m := b1 * a + db * k;
    assert b1 * a + db * (k + 1) == m + db;
    DivStep(m, db, a);
  }

  lemma DivStep(m: int, d: int, a: int)
    requires a > 0 && -a <= d <= a
    ensures -1 <= (m + d) / a - m / a <= 1
  {
    var q, r := m / a, m % a;
    var q', r' := (m + d) / a, (m + d) % a;
    assert m == q * a + r && m + d == q' * a + r';
    assert (q' - q) * a == r + d - r';
    assert (q - q') * a == r' - r - d;
    if q' - q >= 2 {
      MulMonotone(2, q' - q, a);
    }
    if q - q' >= 2 {
      MulMonotone(2, q - q', a);
    }
  }

  /** The closed form starts at the first endpoint, ... */
  lemma TracedStart(x1: int, y1: int, x2: int, y2: int)
    requires x1 != x2 || y1 != y2
    ensures Traced(x1, y1, x2, y2, 0) == Pixel(x1, y1)
  {
    if Abs(x2 - x1) > Abs(y2 - y1) {
      MinorStart(y1, x2 - x1, y2 - y1);
    } else {
      MinorStart(x1, y2 - y1, x2 - x1);
    }
  }

  /** ... reaches the second endpoint one step after the last pixel drawn, ... */
  lemma TracedEnd(x1: int, y1: int, x2: int, y2: int)
    requires x1 != x2 || y1 != y2
    ensures Traced(x1, y1, x2, y2, Length(x1, y1, x2, y2)) == Pixel(x2, y2)
  {
    if Abs(x2 - x1) > Abs(y2 - y1) {
      MinorEnd(y1, y2, x2 - x1);
    } else {
      MinorEnd(x1, x2, y2 - y1);
    }
  }

  /** ... so never draws that endpoint: the major coordinate of every pixel
      drawn is short of it, ... */
  lemma TracedSkipsEnd(x1: int, y1: int, x2: int, y2: int, k: int)
    requires x1 != x2 || y1 != y2
    requires 0 <= k < Length(x1, y1, x2, y2)
    ensures Traced(x1, y1, x2, y2, k) != Pixel(x2, y2)
  {
  }

  /** ... stays in the box the endpoints span, ... */
  lemma TracedInBox(x1: int, y1: int, x2: int, y2: int, k: int)
    requires x1 != x2 || y1 != y2
    requires 0 <= k <= Length(x1, y1, x2, y2)
    ensures Between(Traced(x1, y1, x2, y2, k).x, x1, x2)
    ensures Between(Traced(x1, y1, x2, y2, k).y, y1, y2)
  {
    if Abs(x2 - x1) > Abs(y2 - y1) {
      MinorBetween(y1, y2, x2 - x1, k);
    } else {
      MinorBetween(x1, x2, y2 - y1, k);
    }
  }

  /** ... and leaves no gap: successive pixels touch, moving one step along
      the major axis and at most one along the other. */
  lemma TracedConnected(x1: int, y1: int, x2: int, y2: int, k: int)
    requires x1 != x2 || y1 != y2
    ensures var p, q := Traced(x1, y1, x2, y2, k), Traced(x1, y1, x2, y2, k + 1);
      && Abs(q.x - p.x) <= 1 && Abs(q.y - p.y) <= 1
      && (Abs(x2 - x1) > Abs(y2 - y1) ==> Abs(q.x - p.x) == 1)
      && (Abs(x2 - x1) <= Abs(y2 - y1) ==> Abs(q.y - p.y) == 1)
  {
    if Abs(x2 - x1) > Abs(y2 - y1) {
      MinorAdjacent(y1, x2 - x1, y2 - y1, k);
    } else {
      MinorAdjacent(x1, y2 - y1, x2 - x1, k);
    }
  }

  /** `ST7735_Line`: `None` for a line of length zero, which divides by
      zero in C; otherwise the pixels in the order they are drawn. */
  method DrawLine(x1: u16, y1: u16, x2: u16, y2: u16) returns (r: Option<seq<Pixel>>)
    ensures r.None? <==> x1 == x2 && y1 == y2
    ensures r.Some? ==> |r.value| == Length(x1, y1, x2, y2)
    ensures r.Some? ==> forall k :: 0 <= k < |r.value| ==> r.value[k] == Traced(x1, y1, x2, y2, k)
    ensures r.Some? ==> r.value[0] == Pixel(x1, y1) && Pixel(x2, y2) !in r.value
  {
    if x1 != x2 || y1 != y2 {
      TracedStart(x1, y1, x2, y2);
      forall k | 0 <= k < Length(x1, y1, x2, y2) {
        TracedSkipsEnd(x1, y1, x2, y2, k);
      }
    }
    var dy := y2 - y1;
    var dx := x2 - x1;
    if Abs(dx) > Abs(dy) {
      var pixels := AlongX(x1, y1, x2, y2);
      return Some(pixels);
    } else if dy == 0 {
      return None;
    } else {
      var pixels := AlongY(x1, y1, x2, y2);
      return Some(pixels);
    }
  }

  /** The branch for lines wider than tall: x steps by one per pixel. */
  method AlongX(x1: u16, y1: u16, x2: u16, y2: u16) returns (pixels: seq<Pixel>)
    requires Abs(x2 - x1) > Abs(y2 - y1)
    ensures |pixels| == Abs(x2 - x1)
    ensures forall k :: 0 <= k < |pixels| ==> pixels[k] == Traced(x1, y1, x2, y2, k)
  {
    var dy: int := y2 - y1;
    var dx: int := x2 - x1;
    var cx: int := x1;
    var cy: int := y1;
    var step := 1;
    pixels := [];
    var s := CDiv(dx, Abs(dx));
    UnitStep(dx);
    MinorStart(y1, dx, dy);
    while cx != x2
      invariant 1 <= step <= Abs(dx) + 1
      invariant cx == Major(x1, dx, step - 1) && cy == Minor(y1, dx, dy, step - 1)
      invariant |pixels| == step - 1
      invariant forall k :: 0 <= k < |pixels| ==> pixels[k] == Traced(x1, y1, x2, y2, k)
      decreases Abs(dx) + 1 - step
    {
      pixels := pixels + [Pixel(cx, cy)];
      cx := cx + s;
      MinorStep(y1, y2, dx, dy, s, step);
      cy := CDiv(y1 * dx + s * dy * step, dx);
      assert cy == Minor(y1, dx, dy, step);
      step := step + 1;
    }
  }

  /** The branch for lines at least as tall as wide: y steps by one. */
  method AlongY(x1: u16, y1: u16, x2: u16, y2: u16) returns (pixels: seq<Pixel>)
    requires Abs(x2 - x1) <= Abs(y2 - y1) && y1 != y2
    ensures |pixels| == Abs(y2 - y1)
    ensures forall k :: 0 <= k < |pixels| ==> pixels[k] == Traced(x1, y1, x2, y2, k)
  {
    var dy: int := y2 - y1;
    var dx: int := x2 - x1;
    var cx: int := x1;
    var cy: int := y1;
    var step := 1;
    pixels := [];
    var s := CDiv(dy, Abs(dy));
    UnitStep(dy);
    MinorStart(x1, dy, dx);
    while cy != y2
      invariant 1 <= step <= Abs(dy) + 1
      invariant cy == Major(y1, dy, step - 1) && cx == Minor(x1, dy, dx, step - 1)
      invariant |pixels| == step - 1
      invariant forall k :: 0 <= k < |pixels| ==> pixels[k] == Traced(x1, y1, x2, y2, k)
      decreases Abs(dy) + 1 - step
    {
      pixels := pixels + [Pixel(cx, cy)];
      MinorStep(x1, x2, dy, dx, s, step);
      cx := CDiv(x1 * dy + s * dx * step, dy);
      assert cx == Minor(x1, dy, dx, step);
      cy := cy + s;
      step := step + 1;
    }
  }
}

=== FILE: plot.dfy ===
/** The x-y scatter plot of GardenTelemetry/fixed.c: the axis window
    `ST7735_XYplotInit` records, the range remap `resize`, and the point
    filter of `ST7735_XYplot`. */
module Plot {
  import opened CArith

  /** `ST7735_TFTWIDTH` and `ST7735_TFTHEIGHT` of the 128x160 panel. */
  const ScreenWidth: int := 128
  const ScreenHeight: int := 160
  /** The plot area starts below the title rows. */
  const XStartDraw: int := 0
  const YStartDraw: int := 32

  /** The bounds `ST7735_XYplotInit` stores in `xMin`, `xMax`, `yMin`, `yMax`. */
  datatype Window = Window(xMin: int, xMax: int, yMin: int, yMax: int)

  datatype DataPoint = DataPoint(x: int, y: int)

  /** The remap as the code writes it: the new lower bound is added to the
      divisor instead of to the quotient. */
  function ResizeAsWritten(point: int, newMax: int, newMin: int, oldMax: int, oldMin: int): (r: int)
    requires (oldMax - oldMin) + newMin != 0
    ensures point == oldMin ==> r == 0
    ensures newMin == 0 && oldMin < oldMax ==> r == Resize(point, newMax, newMin, oldMax, oldMin)
  {
    CDiv((point - oldMin) * (newMax - newMin), (oldMax - oldMin) + newMin)
  }

  /** The remap the comment describes: `[oldMin, oldMax]` onto
      `[newMin, newMax]`, the offset scaled with C's truncating `/`. */
  function Resize(point: int, newMax: int, newMin: int, oldMax: int, oldMin: int): (r: int)
    requires oldMin < oldMax
    ensures point == oldMin ==> r == newMin
    ensures point == oldMax ==> r == newMax
  {
    CDivMultiple(newMax - newMin, oldMax - oldMin);
    assert (oldMax - oldMin) * (newMax - newMin) == (newMax - newMin) * (oldMax - oldMin);
    newMin + CDiv((point - oldMin) * (newMax - newMin), oldMax - oldMin)
  }

  /** A point inside the old range lands inside the new range. */
  lemma ResizeInRange(point: int, newMax: int, newMin: int, oldMax: int, oldMin: int)
    requires oldMin < oldMax && oldMin <= point <= oldMax && newMin <= newMax
    ensures newMin <= Resize(point, newMax, newMin, oldMax, oldMin) <= newMax
  {
    var d := oldMax - oldMin;
    var x := (point - oldMin) * (newMax - newMin);
    MulMonotone(0, point - oldMin, newMax - newMin);
    MulMonotone(point - oldMin, d, newMax - newMin);
    CDivNonNegative(x, d);
    DivBetween(x, d, 0, newMax - newMin);
  }

  /** The remap keeps the order of points. */
  lemma ResizeMonotone(p: int, q: int, newMax: int, newMin: int, oldMax: int, oldMin: int)
    requires oldMin < oldMax && oldMin <= p <= q && newMin <= newMax
    ensures Resize(p, newMax, newMin, oldMax, oldMin) <= Resize(q, newMax, newMin, oldMax, oldMin)
  {
    var d := oldMax - oldMin;
    var a := (p - oldMin) * (newMax - newMin);
    var b := (q - oldMin) * (newMax - newMin);
    MulMonotone(0, p - oldMin, newMax - newMin);
    MulMonotone(p - oldMin, q - oldMin, newMax - newMin);
    CDivNonNegative(a, d);
    CDivNonNegative(b, d);
    DivMonotone(a, b, d);
  }

  lemma DivMonotone(a: int, b: int, d: int)
    requires 0 <= a <= b && d > 0
    ensures a / d <= b / d
  {
    var q := a / d;
    assert q * d <= a;
    DivBetween(b, d, q, b);
  }

  /** With the y axis of the plot (new range [32, 160], data range [0, 100])
      the top of the data range lands at 96 instead of at 160. */
  lemma ResizeMissesTop()
    ensures ResizeAsWritten(100, ScreenHeight, YStartDraw, 100, 0) == 96
    ensures Resize(100, ScreenHeight, YStartDraw, 100, 0) == ScreenHeight
  {
  }

  /** The bounds test of `ST7735_XYplot`: inclusive on all four sides. */
  predicate Inside(w: Window, x: int, y: int) {
    x <= w.xMax && x >= w.xMin && y <= w.yMax && y >= w.yMin
  }

  /** Reference: the points of the two coordinate arrays that pass the
      bounds test, in array order. */
  function Visible(w: Window, xs: seq<int>, ys: seq<int>): (r: seq<DataPoint>)
    requires |xs| == |ys|
    ensures |r| <= |xs|
    ensures forall j :: 0 <= j < |r| ==> Inside(w, r[j].x, r[j].y)
  {
    if xs == [] then []
    else
      var n := |xs| - 1;
      Visible(w, xs[..n], ys[..n]) + (if Inside(w, xs[n], ys[n]) then [DataPoint(xs[n], ys[n])] else [])
  }

  /** A point is plotted exactly when some index of the arrays holds it and
      it passes the bounds test. */
  lemma {:induction false} VisibleMembers(w: Window, xs: seq<int>, ys: seq<int>, p: DataPoint)
    requires |xs| == |ys|
    ensures p in Visible(w, xs, ys) <==>
      Inside(w, p.x, p.y) && exists i :: 0 <= i < |xs| && xs[i] == p.x && ys[i] == p.y
    decreases |xs|
  {
    if xs != [] {
      var n := |xs| - 1;
      VisibleMembers(w, xs[..n], ys[..n], p);
      if Inside(w, p.x, p.y) && (exists i :: 0 <= i < |xs| && xs[i] == p.x && ys[i] == p.y) {
        var i :| 0 <= i < |xs| && xs[i] == p.x && ys[i] == p.y;
        if i < n {
          assert xs[..n][i] == p.x && ys[..n][i] == p.y;
        }
      }
      if p in Visible(w, xs[..n], ys[..n]) {
        var i :| 0 <= i < n && xs[..n][i] == p.x && ys[..n][i] == p.y;
        assert xs[i] == p.x && ys[i] == p.y;
      }
    }
  }

  /** `ST7735_XYplot`: walks the first `num` entries of both arrays and
      plots those inside the window; the result lists the data points
      plotted, in order. */
  method XYplot(w: Window, num: u32, bufX: seq<int>, bufY: seq<int>) returns (drawn: seq<DataPoint>)
    requires num <= |bufX| && num <= |bufY|
    ensures drawn == Visible(w, bufX[..num], bufY[..num])
    ensures |drawn| <= num
  {
    drawn := [];
    var i := 0;
    while i < num
      invariant 0 <= i <= num
      invariant drawn == Visible(w, bufX[..i], bufY[..i])
    {
      assert bufX[..i + 1][..i] == bufX[..i] && bufY[..i + 1][..i] == bufY[..i];
      if bufX[i] <= w.xMax && bufX[i] >= w.xMin && bufY[i] <= w.yMax && bufY[i] >= w.yMin {
        drawn := drawn + [DataPoint(bufX[i], bufY[i])];
      }
      i := i + 1;
    }
  }
}
